=== FILE: README.md ===
# gitbruv services: token acquisition, GitHub calls and console output

This Dafny project models three services of the `gitbruv` command-line tool.

- **`AuthService`** gets a GitHub token. It tries the `GITHUB_TOKEN` environment variable first, then the token file `~/.gitbruv_token`. As a last resort it runs an interactive OAuth login:
  - it binds a local callback listener on port 8765;
  - it asks the gitbruv server for a login URL;
  - it opens that URL in the browser;
  - it answers the browser's callback requests;
  - it exchanges the callback `code` for a token at the gitbruv server.

  A token obtained by logging in is trimmed and stored in the token file.
- **`GithubService`** resolves a token with `getOrInitToken`, which may delegate to an auth service. It then posts a repository or pull-request creation request to the GitHub REST API and turns the reply into a URL or a thrown error.
- **`LoggingService`** contributes its decision logic:
  - the spinner's frame index and its timer;
  - how the answers to `confirm`, `input` and `select` are read;
  - which lines `syncStatus`, `commitHistory`, `commandOutput` and `warnings` print.

The model is organised in five modules.

- `JsRuntime` holds the JavaScript behaviour the services rely on:
  - truthiness of strings;
  - `String.prototype.trim` over the ECMAScript white-space and line-terminator characters;
  - `parseInt` without a radix;
  - decimal printing of integers;
  - `slice(0, end)`, including a negative `end`.
- `Io` defines the outside world as values:
  - the HTTP replies;
  - the requests that reach the callback listener;
  - the token file: missing, present, or unreadable.

  It also defines each run's effect trace (listener bound, URL fetched, page answered, listener closed, file read or written, ...), the thrown errors with their messages, and the three ways an `async` call can settle: it returns, it throws, or it never settles.
- `AuthService`, `GithubService` and `LoggingService` follow the three source files.

Each operation is a pure function of those inputs. An operation returns its effect trace together with its outcome.

## Model

| member | source | states |
|---|---|---|
| JsRuntime.Trim | src/services/auth.service.ts:32 | the result of `trim` has no white space at either end and is no longer than its input |
| JsRuntime.IsWhitespace | src/services/auth.service.ts:32 | the characters `trim` strips and `parseInt` skips: the ECMAScript white-space and line-terminator code points (sections 12.2 and 12.3 of ECMA-262) |
| JsRuntime.TrimFraming | src/services/auth.service.ts:32 | whenever a string is white space, then a trimmed core, then white space, `trim` returns exactly that core |
| JsRuntime.TrimOfTrimmed | src/services/auth.service.ts:40-45 | a string with no white space at either end is its own trim, so the token written and the token returned are the same string |
| JsRuntime.TrimIdempotent | src/services/github.service.ts:24-25 | trimming a trimmed token again changes nothing, so the token written and the token returned agree |
| JsRuntime.TrimPadded | src/services/logging.service.ts:318 | surrounding white space of any kind is removed and the core is kept intact |
| JsRuntime.Show | src/services/logging.service.ts:163 | an integer prints as at least one decimal digit, with a leading zero only for 0 |
| JsRuntime.ShowValue | src/services/logging.service.ts:163 | reading the printed digits back as decimal gives the integer |
| JsRuntime.ParseInt | src/services/logging.service.ts:337 | `parseInt` with no radix: a blank answer is NaN, and a number is read only where non-white-space text remains |
| JsRuntime.ParseIntShow | src/services/logging.service.ts:337 | `parseInt` of leading white space, a printed number, and text that does not continue the digits returns that number |
| JsRuntime.SlicePrefix | src/services/logging.service.ts:187 | `slice(0, end)` is a prefix of its input; its length is `min(end, len)` for `end >= 0` and `max(len + end, 0)` for a negative `end` |
| AuthService.RedirectUriNamesListener | src/services/auth.service.ts:12-13 | the redirect URI names `localhost`, the listener's port and the callback path |
| AuthService.EndpointUrl | src/services/auth.service.ts:100-118 | both login endpoints, the login-URL service and the token exchange, are addresses on the gitbruv API server; `StepEffects` and `GetGithubTokenInteractive` state which address each call goes to |
| AuthService.PageText | src/services/auth.service.ts:66-89 | the success page is the page file's contents when it was read and a built-in text otherwise; apart from an empty page file, only the 404 answer has an empty body |
| AuthService.TokenOfReply | src/services/auth.service.ts:119-127 | an exchange yields a token exactly when the reply succeeded with data whose `access_token` is truthy, and the token is that field |
| AuthService.ExchangeCodeForToken | src/services/auth.service.ts:115-129 | the exchange posts the given code with the listener's redirect URI, and its token is the one the reply carries |
| AuthService.HandleRequest | src/services/auth.service.ts:55-92 | a request to another path gets 404 and keeps the listener open. A callback with a truthy code exchanges it once, gets 200, and closes with the exchanged token. A callback without a code gets 400 and closes with null. An unparseable request gets 500 and closes with null |
| AuthService.HandlerPages | src/services/auth.service.ts:66-89 | a stray request gets an empty body; a code callback gets the page file or the built-in success text; a callback without a code gets the no-code page; an unparseable request gets the error text |
| AuthService.StepEffects | src/services/auth.service.ts:63-90 | each handled request is answered exactly once and closes the listener at most once. The exchange is awaited before the answer, and the closure comes after the answer. An exchange is posted to `…/github/oauth` on the API server |
| AuthService.FirstDecisive | src/services/auth.service.ts:58 | finds the first request that is not a stray request to another path |
| AuthService.TraceOfSteps | src/services/auth.service.ts:55-92 | when only the last handled request may close the listener, the run's exchanges are that request's exchange alone, and there is one closure exactly when the listener ended closed |
| AuthService.TraceStatuses | src/services/auth.service.ts:73-88 | every handled request is answered exactly once, in arrival order, with its own status |
| AuthService.Listen | src/services/auth.service.ts:55-93 | requests are handled in arrival order by the request handler, the listener stays open through every request but the last one handled, and a listener still open has handled every request |
| AuthService.ListenTrace | src/services/auth.service.ts:55-92 | the listener closes once exactly when it ended closed; at most one code is exchanged and none while it is still listening; a token comes from exactly one exchange and is truthy |
| AuthService.ListenResultIsExchanged | src/services/auth.service.ts:61-77 | once a code was exchanged, the listener closes with the token of that exchange's reply, or with null when the reply carries none |
| AuthService.ListenDecidedByFirstDecisive | src/services/auth.service.ts:55-92 | the first non-stray request decides the flow: the listener is still open exactly when there is none; otherwise the requests up to it, and no later ones, are handled, and its handling sets the final state |
| AuthService.ListenAnswers | src/services/auth.service.ts:83-86 | every stray request before the deciding one is answered 404, and the deciding one's status is answered last |
| AuthService.CodeCallbackExchangesOnce | src/services/auth.service.ts:61-77 | after any number of stray requests, a callback with a code exchanges exactly that code with the redirect URI, is answered 200 as the last of one status per handled request, closes the listener once, and resolves with the exchanged token, whatever requests come after |
| AuthService.CodeCallbackAfterStrays | src/services/auth.service.ts:58-86 | before a code callback, each stray request is answered 404, and there is one status per handled request |
| AuthService.SingleCodeCallback | src/services/auth.service.ts:58-77 | a browser that sends only a callback with a code causes exactly one exchange of that code, and the listener closes with that exchange's token |
| AuthService.CallbackWithoutCodeNeverExchanges | src/services/auth.service.ts:78-86 | after any number of stray requests, each answered 404, a callback with no code never exchanges, answers 400, and resolves with null |
| AuthService.FirstDecisiveAt | src/services/auth.service.ts:58 | the deciding request is the first non-stray one |
| AuthService.GetGithubTokenInteractive | src/services/auth.service.ts:50-113 | the listener is bound before the login URL is requested from `…/auth/with/github` on the API server. A failed URL request resolves to null with the listener still bound. Otherwise the prompt and the URL are printed, the URL is opened, and the flow resolves with the listener's result once it closes, staying pending while it listens |
| AuthService.AwaitLogin | src/services/auth.service.ts:107-112 | the prompt and the URL are printed and then the URL is opened; the flow resolves with the listener's result once it closes, and stays pending exactly while the listener is open |
| AuthService.AfterListening | src/services/auth.service.ts:107-112 | the prompt, the URL and the browser opening come first; the flow resolves with the listener's result once it has closed, and stays pending while it listens |
| AuthService.AfterListeningTrace | src/services/auth.service.ts:107-109 | printing and opening the URL neither exchange a code nor close the listener |
| AuthService.AwaitLoginTrace | src/services/auth.service.ts:54-112 | after the URL is opened, the listener is open exactly when it was never closed and at most one code is exchanged. A token comes from exactly one exchange, and once a code was exchanged the flow resolves with the token of that exchange's reply |
| AuthService.InteractiveTrace | src/services/auth.service.ts:50-113 | over the whole login, the listener is open exactly when it was never closed and at most one code is exchanged. A resolved token is truthy and came from exactly one exchange, and once a code was exchanged the login resolves with the token of that exchange's reply |
| AuthService.GetGithubToken | src/services/auth.service.ts:24-48 | a truthy environment token is returned without touching the file. An existing token file is read and trimmed. An unreadable one throws right after the read, before any login or write. Otherwise the login runs: a returned token is trimmed and was written to the token file last; a login that yields null writes nothing and returns null; a login that never settles leaves the call pending |
| AuthService.PersistedTokenIsReused | src/services/auth.service.ts:31-45 | a token obtained by logging in is written to the token file, and the next call reads back that same token without logging in |
| AuthService.WriteFailureLosesToken | src/services/auth.service.ts:39-44 | when writing the file fails after a successful login, the call returns null even though a write was attempted |
| AuthService.UrlFailureLeavesListenerBound | src/services/auth.service.ts:93-105 | when the login URL cannot be fetched the call returns null, with the listener bound and never closed |
| AuthService.LoginScenarioInteractive | src/services/auth.service.ts:50-113 | a concrete login: a stray request, then a callback with code `abc123`, resolves with the token the server sends for that code |
| AuthService.FileAccessAddsNoExchange | src/services/auth.service.ts:31-40 | checking for the token file and writing it exchange no code, so a run keeps its login's exchanges |
| AuthService.InteractiveTokenPersisted | src/services/auth.service.ts:36-45 | a login token is written trimmed after the login's effects and returned trimmed, with the login's exchanges unchanged |
| AuthService.LoginScenario | src/services/auth.service.ts:24-48 | the concrete login returns `tok_999`, writes it to the token file last, and exchanged only `abc123` |
| GithubService.GetOrInitToken | src/services/github.service.ts:12-29 | a truthy environment token is returned verbatim, and an existing file is returned trimmed. Otherwise the notice is printed. An unreadable file throws right after the read, with no notice and no delegate call. A truthy delegate token is written trimmed and returned trimmed, and a failed write throws. In every other case nothing follows the delegate's own effects: a falsy token returns null, and a delegate's throw or hang propagates |
| GithubService.DelegatingToAuthService | src/services/github.service.ts:21-26 | with the auth service as delegate and the same file system, so that a write fails for both or for neither, `getOrInitToken` settles as `getGithubToken` does, except that a login token that trims to empty becomes null |
| GithubService.Send | src/services/github.service.ts:47-52 | an ok reply yields its `html_url`; a non-ok reply throws `Failed to create <what>: <text>`; a rejected fetch throws the fetch error |
| GithubService.CreateRepo | src/services/github.service.ts:31-53 | a request is sent exactly when a truthy token was resolved. It goes to `/user/repos` with `token <t>`, the GitHub Accept header and the name and privacy flag. A falsy token throws. A failed resolution propagates. Once sent, an ok reply yields its `html_url`, a non-ok reply throws `Failed to create repo: <text>`, and a rejected fetch throws |
| GithubService.CreatePullRequest | src/services/github.service.ts:66-113 | a request is sent exactly when a truthy token was resolved and owner and repo are both non-empty. It goes to `/repos/<owner>/<repo>/pulls` with title, head, base and body. A falsy token throws before the owner check, and an empty owner or repo throws its own error. Once sent, an ok reply yields its `html_url`, a non-ok reply throws `Failed to create pull request: <text>`, and a rejected fetch throws |
| LoggingService.StopSpinner | src/services/logging.service.ts:36-45 | with no spinner, nothing happens. Otherwise its timer stops and the line is cleared; a `✓` line with the message follows exactly when the final message is truthy, and nothing else is printed. The invariant is kept and no timer is left running |
| LoggingService.StartSpinner | src/services/logging.service.ts:25-34 | the previous timer is stopped and a fresh one started. Exactly one timer runs afterwards. The output is a line clear when a spinner was running, and then frame 0 with the message; no final message is printed. The frame index is not reset |
| LoggingService.FirstStartFromIdle | src/services/logging.service.ts:6-8 | a fresh service is in a valid state, and its first start clears no line: it paints frame 0 and runs the first timer |
| LoggingService.Tick | src/services/logging.service.ts:29-33 | a firing advances the index modulo the frame count, clears the line and paints that frame with the spinner's message; the invariant is kept |
| LoggingService.TicksAdvanceCyclically | src/services/logging.service.ts:30 | after `n` firings the index is the start index plus `n` modulo ten, and the same timer is still running |
| LoggingService.RestartLeavesOneTimer | src/services/logging.service.ts:25-26 | starting twice leaves only the second timer running |
| LoggingService.ToLower | src/services/logging.service.ts:295 | no ASCII capital is left: capitals become their small letters and every other character is kept |
| LoggingService.Confirm | src/services/logging.service.ts:295 | an accepted answer is one or three characters long |
| LoggingService.ConfirmAcceptsExactly | src/services/logging.service.ts:295 | `confirm` accepts exactly the ten case variants of `y` and `yes`, with nothing around them |
| LoggingService.Input | src/services/logging.service.ts:318 | the answer is returned with no surrounding white space |
| LoggingService.InputStripsPadding | src/services/logging.service.ts:318 | a padded answer comes back as its core, and reading it again changes nothing |
| LoggingService.MenuLines | src/services/logging.service.ts:324-327 | the prompt line, then one line per option in order, numbered from 1 |
| LoggingService.ChoosePrompt | src/services/logging.service.ts:335 | the question opens with `Choose (1-` |
| LoggingService.ChoosePromptNamesLastOption | src/services/logging.service.ts:335 | the range the question names ends at the option count, the number of the last menu line |
| LoggingService.Select | src/services/logging.service.ts:334-344 | when `parseInt` of the answer gives a number `n` from 1 to the option count, the choice is option `n`; an answer with no number, or with a number naming no option, is returned trimmed |
| LoggingService.SelectByNumber | src/services/logging.service.ts:337-339 | typing the menu number of option `i`, after any white space and before any non-digit text, selects option `i` |
| LoggingService.SelectOutOfRange | src/services/logging.service.ts:337-342 | typing 0 or a number above the option count, after any white space and before any non-digit text, returns the trimmed answer |
| LoggingService.SelectEchoedMenuLine | src/services/logging.service.ts:326-337 | typing back a whole menu line selects the option printed on it |
| LoggingService.SyncStatus | src/services/logging.service.ts:160-171 | the header comes first; the up-to-date line appears exactly when both counts are zero; an ahead line comes right after the header, and a behind line comes last. There is no other line: one line per condition that holds, plus the header |
| LoggingService.SyncStatusMarksCounts | src/services/logging.service.ts:162-167 | an up-arrow line appears exactly when the ahead count is positive, and a down-arrow line exactly when the behind count is positive |
| LoggingService.AheadCountReadsBack | src/services/logging.service.ts:163 | the count on the ahead line parses back to the ahead count |
| LoggingService.CommitHistory | src/services/logging.service.ts:185-190 | the header, then exactly the commits of `slice(0, limit)`, each indented, in order |
| LoggingService.CommandOutput | src/services/logging.service.ts:228-232 | empty output prints nothing. Otherwise one indented line prints a prefix of the output, whose length follows `slice(0, maxLength)` |
| LoggingService.Warnings | src/services/logging.service.ts:243-251 | an empty list prints nothing; otherwise the header, one bullet per warning in order, and a blank line |

## Left out

- Real I/O is not modelled: the HTTP listener, `axios`, `fetch`, `open`, the file system and `process.env`. Each becomes an input value or an effect in the trace. Binding errors such as a port already in use are not modelled.
- Concurrency is left out. Listener requests are handled one at a time, and nothing is handled after the listener closes. Keep-alive requests arriving during `server.close` are not modelled.
- Each call of `getGithubTokenInteractive` starts its own listener (auth.service.ts:50-94); concurrent logins are not shared, and the model has one call at a time.
- The listener is bound before the login URL is requested and stays bound when that request fails (auth.service.ts:93-105); the model records it as bound and never closed.
- When writing the token file fails, `getGithubToken` returns null (auth.service.ts:39-44). `getOrInitToken` does not catch its write, so there the failure throws.
- The success page file is an optional input; how `__dirname` resolves to it is not modelled.
- A failing or missing `open()` and a missing `url` field in the login-URL reply are not modelled. A non-string `access_token` is not modelled either.
- A reply body that is not JSON, or one without `html_url`, is not modelled.
- The `console.error` that `exchangeCodeForToken` writes for a reply without `access_token` (auth.service.ts:122) is not in the effect trace; only the null token it leads to is.
- Default arguments are not modelled: every parameter is explicit. The source's defaults are `message = 'Thinking...'` for `startSpinner`, `limit = 5` for `commitHistory`, `maxLength = 200` for `commandOutput` (logging.service.ts:25,185,228), and `isPrivate = true` and `body = ''` for the GitHub calls (github.service.ts:31,72).
- JsRuntime.ParseInt: works on unbounded integers. Digit runs above 2^53, where JavaScript numbers lose precision, are out of scope.
- JsRuntime.Show: gives plain decimal text. JavaScript's exponent notation for numbers of 10^21 and above is not modelled.
- `syncStatus`, `commitHistory` and `commandOutput` take integer counts and limits. Fractional or NaN numbers are not modelled.
- JsRuntime.SlicePrefix: counts characters. JavaScript slices UTF-16 code units, which differ for characters outside the Basic Multilingual Plane.
- LoggingService.ToLower: lower-cases ASCII only; `toLowerCase` also maps other scripts' capitals.
- LoggingService.Confirm: lower-cases ASCII only. No other character lower-cases to `y`, `e` or `s`, so the accepted answers are the same.
- Colours (`chalk`), timestamps and the 80 ms interval are not modelled. The `readline` plumbing is not modelled.
- These `LoggingService` methods are left out because they only format their arguments into text, and `JSON.stringify` of their optional details is not modelled: `info`, `success`, `warn`, `separator`, `header`, `subheader`, `repoInfo`, `repoStatus`, `conflictWarning`, `commandFailed`, `planHeader`, `executingHeader`, `deploySuccess`, `mergeInfo`, `resolveInfo`, and the legacy `log` and `audit`.
- `fileList`, `step` and `command` pick an icon and a colour from their enum argument; they are left out with the other formatting.
- `debug` prints only when `process.env.DEBUG` is set, and `error` branches on whether its second argument is an `Error` and on `DEBUG` (logging.service.ts:79-102). They are left out because the model has no environment variables for the logger and no run-time type tests.
- `thinking`, `analyzing` and `done` only forward to `startSpinner` and `stopSpinner` (logging.service.ts:122-132); `confirmHighRisk` prints a blank line and three lines and then asks `confirm` (logging.service.ts:300-307).
- `isGhAuthenticated` is left out because it only runs the `gh` executable.
- The other services (`ai.service.ts`, `api.service.ts`, `models.service.ts`) and the command-line entry point are not part of this model.

=== FILE: auth_service.dfy ===
/**
 The OAuth login of `AuthService`: the token lookup order of
 `getGithubToken` (environment, token file, interactive login), the
 interactive flow that binds a local listener and asks a broker for the
 login URL, the `/callback` request handler as a state machine, and the
 mapping of the code-exchange reply to a token.

 Every outside answer is an input: the environment variable, the token
 file, the login-URL reply, the requests the browser sends to the listener,
 the exchange endpoint (a function from request to reply), the success page
 file and whether writing the token file succeeds.
 */
module AuthService {
  import opened JsRuntime
  import opened Io

  const OauthPort: nat := 8765
  const CallbackPath := "/callback"
  const RedirectUri := "http://localhost:8765/callback"
  const TokenFileName := "/.gitbruv_token"
  const LoginPrompt := "\nPlease login to GitHub:"

  /** The gitbruv API server both login endpoints live on. */
  const ApiBase := "https://api.gitbruv.byorello.space/api/v1/"

  /** The address of each gitbruv server endpoint. */
  function EndpointUrl(e: Endpoint): (u: string)
    ensures |ApiBase| < |u| && u[..|ApiBase|] == ApiBase
  {
    match e
    case LoginUrlService => ApiBase + "auth/with/github"
    case TokenExchangeService => ApiBase + "github/oauth"
  }

  /** The text of each page the listener answers with; the success page
      falls back to a built-in text when the page file is missing or
      unreadable. */
  function PageText(p: Page): (t: string)
    ensures p.LoginSuccessful? && p.file.Some? ==> t == p.file.value
    ensures p.NoBody? <==> t == "" && !p.LoginSuccessful?
    ensures p == LoginSuccessful(None) ==> t != ""
  {
    match p
    case LoginSuccessful(file) =>
      if file.Some? then file.value else "<h2>GitHub login successful! You can close this window.</h2>"
    case NoCodeFound => "<h2>No code found in callback URL.</h2>"
    case ServerError => "Internal Server Error"
    case NoBody => ""
  }

  /** The token file lives in the user's home directory. */
  function CachePath(home: string): string {
    home + TokenFileName
  }

  /** The redirect URI sent with every exchange names the listener's own
      port and callback path. */
  lemma RedirectUriNamesListener()
    ensures RedirectUri == "http://localhost:" + Show(OauthPort) + CallbackPath
  {
    assert Show(8) == "8";
    assert Show(87) == Show(8) + "7";
    assert Show(876) == Show(87) + "6";
    assert Show(8765) == Show(876) + "5";
  }

  // ---------------------------------------------------------------------
  // exchangeCodeForToken
  // ---------------------------------------------------------------------

  /** The token a reply carries: `access_token` when the reply has data and
      that field is truthy, null otherwise and when the call threw. */
  function TokenOfReply(reply: ExchangeReply): (t: Option<string>)
    ensures t.Some? ==> Truthy(t.value)
    ensures t.Some? <==> reply.ExchangeOk? && reply.data.Data? && TruthyOpt(reply.data.accessToken)
    ensures t.Some? ==> Some(t.value) == reply.data.accessToken
  {
    match reply
    case ExchangeFailed => None
    case ExchangeOk(data) =>
      if data.Data? && TruthyOpt(data.accessToken) then data.accessToken else None
  }

  datatype Exchanged = Exchanged(request: ExchangeRequest, token: Option<string>)

  /** `exchangeCodeForToken(code)`: one call to the exchange endpoint with
      the code and the fixed redirect URI, and the token of its reply. */
  function ExchangeCodeForToken(code: string, exchange: ExchangeRequest -> ExchangeReply): (x: Exchanged)
    ensures x.request.code == code && x.request.redirectUri == RedirectUri
    ensures x.token == TokenOfReply(exchange(x.request))
  {
    var request := ExchangeRequest(code, RedirectUri);
    Exchanged(request, TokenOfReply(exchange(request)))
  }

  // ---------------------------------------------------------------------
  // The /callback listener
  // ---------------------------------------------------------------------

  /** The listener either keeps listening or has closed with its one result. */
  datatype Listener = Listening | Closed(result: Option<string>)

  /** A request to some other path: answered 404, listening goes on. */
  predicate IsStray(req: Request) {
    req.Request? && req.path != CallbackPath
  }

  /** A request to the callback path that carries a non-empty code. */
  predicate IsCodeCallback(req: Request) {
    req.Request? && req.path == CallbackPath && TruthyOpt(req.code)
  }

  /** The handling of one request: the exchange it made (if any), the
      status and page it answered with, and the listener afterwards. */
  datatype Handled = Handled(exchanged: Option<ExchangeRequest>, status: nat, page: Page, next: Listener)

  /** The listener's request handler: every request is answered; a code
      callback exchanges its code and closes with the exchange's token; a
      callback without a code answers 400 and closes with null; an
      unparseable request answers 500 and closes with null; any other path
      answers 404 and listening goes on. */
  function HandleRequest(req: Request, exchange: ExchangeRequest -> ExchangeReply, pageFile: Option<string>): (h: Handled)
    ensures h.next.Listening? <==> IsStray(req)
    ensures h.status == if IsStray(req) then 404
                        else if IsCodeCallback(req) then 200
                        else if req.Request? then 400
                        else 500
    ensures h.exchanged.Some? <==> IsCodeCallback(req)
    ensures IsCodeCallback(req) ==>
              && h.exchanged == Some(ExchangeRequest(req.code.value, RedirectUri))
              && h.next == Closed(TokenOfReply(exchange(h.exchanged.value)))
    ensures !IsStray(req) && !IsCodeCallback(req) ==> h.next == Closed(None)
  {
    match req
    case Unparseable =>
      Handled(None, 500, ServerError, Closed(None))
    case Request(path, code) =>
      if path != CallbackPath then
        Handled(None, 404, NoBody, Listening)
      else if TruthyOpt(code) then
        var x := ExchangeCodeForToken(code.value, exchange);
        Handled(Some(x.request), 200, LoginSuccessful(pageFile), Closed(x.token))
      else
        Handled(None, 400, NoCodeFound, Closed(None))
  }

  /** The page each answer carries: an empty body for a stray request, the
      success page (the page file when it could be read) for a code
      callback, the no-code page for a callback without a code, and the
      error text for a request that could not be parsed. */
  lemma HandlerPages(req: Request, exchange: ExchangeRequest -> ExchangeReply, pageFile: Option<string>)
    ensures var text := PageText(HandleRequest(req, exchange, pageFile).page);
            && (IsStray(req) <==> text == "" && !IsCodeCallback(req))
            && (IsCodeCallback(req) && pageFile.Some? ==> text == pageFile.value)
            && (IsCodeCallback(req) && pageFile.None? ==> text == PageText(LoginSuccessful(None)))
            && (req.Request? && !IsStray(req) && !IsCodeCallback(req) ==> text == PageText(NoCodeFound))
            && (req.Unparseable? ==> text == PageText(ServerError))
  {
  }

  /** The effects of handling one request: the exchange call, the answer,
      and the closure when the request ends the listening. The exchange is
      awaited before the answer is written, and the listener is closed only
      after the answer. */
  function StepEffects(h: Handled): (t: seq<Effect>)
    ensures Exchanges(t) == if h.exchanged.Some? then [h.exchanged.value] else []
    ensures Statuses(t) == [h.status]
    ensures Closes(t) == if h.next.Closed? then 1 else 0
    ensures var a := if h.exchanged.Some? then 1 else 0;
            && |t| == a + 1 + (if h.next.Closed? then 1 else 0)
            && (h.exchanged.Some? ==> t[0] == PostExchange(TokenExchangeService, h.exchanged.value))
            && (h.exchanged.Some? ==> EndpointUrl(t[0].endpoint) == ApiBase + "github/oauth")
            && t[a] == Respond(h.status, h.page)
            && (h.next.Closed? ==> t[a + 1] == CloseListener)
  {
    var call := if h.exchanged.Some? then [PostExchange(TokenExchangeService, h.exchanged.value)] else [];
    var answer := [Respond(h.status, h.page)];
    var close := if h.next.Closed? then [CloseListener] else [];
    assert answer[1..] == [];
    assert call != [] ==> call[1..] == [];
    assert close != [] ==> close[1..] == [];
    TraceConcat(call, answer);
    TraceConcat(call + answer, close);
    call + answer + close
  }

  /** The effects of the handled requests, one after another. */
  function Trace(steps: seq<Handled>): seq<Effect> {
    if steps == [] then [] else StepEffects(steps[0]) + Trace(steps[1..])
  }

  /** The final state after `steps`: the last step's, or still listening. */
  function After(steps: seq<Handled>): Listener {
    if steps == [] then Listening else steps[|steps| - 1].next
  }

  /** The exchange the last step made, as a trace would list it. */
  function LastExchange(steps: seq<Handled>): seq<ExchangeRequest> {
    if steps != [] && steps[|steps| - 1].exchanged.Some? then [steps[|steps| - 1].exchanged.value] else []
  }

  /** When every step but the last kept listening without exchanging, the
      trace answers each step with its status, in order, exchanges only
      what the last step exchanged, and closes only if the last step
      closed. */
  lemma {:induction false} TraceOfSteps(steps: seq<Handled>)
    requires forall i :: 0 <= i < |steps| - 1 ==> steps[i].next.Listening? && steps[i].exchanged.None?
    ensures Exchanges(Trace(steps)) == LastExchange(steps)
    ensures Closes(Trace(steps)) == if After(steps).Closed? then 1 else 0
  {
    if steps != [] {
      var tail := steps[1..];
      TraceOfSteps(tail);
      TraceConcat(StepEffects(steps[0]), Trace(tail));
      if tail != [] {
        assert steps[|steps| - 1] == tail[|tail| - 1];
      }
    }
  }

  /** Every step is answered once, with its own status, in order. */
  lemma {:induction false} TraceStatuses(steps: seq<Handled>)
    ensures |Statuses(Trace(steps))| == |steps|
    ensures forall i :: 0 <= i < |steps| ==> Statuses(Trace(steps))[i] == steps[i].status
  {
    if steps != [] {
      var tail := steps[1..];
      TraceStatuses(tail);
      TraceConcat(StepEffects(steps[0]), Trace(tail));
      var s := Statuses(Trace(steps));
      assert s == [steps[0].status] + Statuses(Trace(tail));
      forall i | 0 <= i < |steps|
        ensures s[i] == steps[i].status
      {
        if i > 0 {
          assert steps[i] == tail[i - 1];
        }
      }
    }
  }

  /** Index of the first request that is not stray, or the number of
      requests when every one is stray. */
  function FirstDecisive(reqs: seq<Request>): (k: nat)
    ensures k <= |reqs|
    ensures forall i :: 0 <= i < k ==> IsStray(reqs[i])
    ensures k < |reqs| ==> !IsStray(reqs[k])
  {
    if reqs == [] || !IsStray(reqs[0]) then 0 else 1 + FirstDecisive(reqs[1..])
  }

  lemma FirstDecisiveAt(reqs: seq<Request>, k: nat)
    requires k < |reqs| && !IsStray(reqs[k])
    requires forall i :: 0 <= i < k ==> IsStray(reqs[i])
    ensures FirstDecisive(reqs) == k
  {
  }

  /** The requests the listener handled, in order, and its state afterwards. */
  datatype ListenRun = ListenRun(steps: seq<Handled>, state: Listener)

  /** The listener serving `reqs` in arrival order until it closes; requests
      after the closure are never handled. */
  function Listen(reqs: seq<Request>, exchange: ExchangeRequest -> ExchangeReply, pageFile: Option<string>): (r: ListenRun)
    ensures |r.steps| <= |reqs|
    ensures forall i :: 0 <= i < |r.steps| ==> r.steps[i] == HandleRequest(reqs[i], exchange, pageFile)
    ensures forall i :: 0 <= i < |r.steps| - 1 ==> r.steps[i].next.Listening?
    ensures r.state == After(r.steps)
    ensures r.state.Listening? ==> |r.steps| == |reqs|
  {
    if reqs == [] then
      ListenRun([], Listening)
    else
      var h := HandleRequest(reqs[0], exchange, pageFile);
      if h.next.Closed? then
        ListenRun([h], h.next)
      else
        var rest := Listen(reqs[1..], exchange, pageFile);
        var steps := [h] + rest.steps;
        assert forall i :: 1 <= i < |steps| ==> steps[i] == rest.steps[i - 1];
        ListenRun(steps, rest.state)
  }

  /** The listener closes exactly at the first request that is not stray,
      having handled it and everything before it, with that request's
      result. If every request is stray it is still listening. */
  lemma ListenDecidedByFirstDecisive(reqs: seq<Request>, exchange: ExchangeRequest -> ExchangeReply, pageFile: Option<string>)
    ensures var r := Listen(reqs, exchange, pageFile);
            var k := FirstDecisive(reqs);
            && (r.state.Listening? <==> k == |reqs|)
            && (k == |reqs| ==> |r.steps| == k)
            && (k < |reqs| ==> |r.steps| == k + 1 && r.state == HandleRequest(reqs[k], exchange, pageFile).next)
  {
    var r := Listen(reqs, exchange, pageFile);
    var n := |r.steps|;
    if n > 0 {
      var last := HandleRequest(reqs[n - 1], exchange, pageFile);
      assert r.steps[n - 1] == last;
      forall i | 0 <= i < n - 1
        ensures IsStray(reqs[i])
      {
        assert r.steps[i] == HandleRequest(reqs[i], exchange, pageFile);
      }
      if last.next.Closed? {
        FirstDecisiveAt(reqs, n - 1);
      }
    }
  }

  /** What the listener's trace shows: at most one exchange, none while
      still listening; one closure exactly when it closed; a token only
      from a real exchange. */
  lemma ListenTrace(reqs: seq<Request>, exchange: ExchangeRequest -> ExchangeReply, pageFile: Option<string>)
    ensures var r := Listen(reqs, exchange, pageFile);
            var t := Trace(r.steps);
            && Closes(t) == (if r.state.Closed? then 1 else 0)
            && |Exchanges(t)| <= 1
            && (r.state.Listening? ==> Exchanges(t) == [])
            && (r.state.Closed? && r.state.result.Some? ==> Truthy(r.state.result.value) && |Exchanges(t)| == 1)
  {
    var r := Listen(reqs, exchange, pageFile);
    forall i | 0 <= i < |r.steps| - 1
      ensures r.steps[i].next.Listening? && r.steps[i].exchanged.None?
    {
      assert r.steps[i] == HandleRequest(reqs[i], exchange, pageFile);
    }
    TraceOfSteps(r.steps);
    if r.steps != [] {
      var n := |r.steps|;
      assert r.steps[n - 1] == HandleRequest(reqs[n - 1], exchange, pageFile);
    }
  }

  /** After an exchange, the listener's result is the token of that
      exchange's reply, whether a token or null. */
  lemma ListenResultIsExchanged(reqs: seq<Request>, exchange: ExchangeRequest -> ExchangeReply, pageFile: Option<string>)
    ensures var r := Listen(reqs, exchange, pageFile);
            var t := Trace(r.steps);
            |Exchanges(t)| == 1 ==> r.state == Closed(TokenOfReply(exchange(Exchanges(t)[0])))
  {
    var r := Listen(reqs, exchange, pageFile);
    forall i | 0 <= i < |r.steps| - 1
      ensures r.steps[i].next.Listening? && r.steps[i].exchanged.None?
    {
      assert r.steps[i] == HandleRequest(reqs[i], exchange, pageFile);
    }
    TraceOfSteps(r.steps);
    if r.steps != [] {
      var n := |r.steps|;
      assert r.steps[n - 1] == HandleRequest(reqs[n - 1], exchange, pageFile);
    }
  }

  /** The answers the listener gives: 404 to every request before the
      decisive one, then the decisive one's own status, and nothing after. */
  lemma ListenAnswers(reqs: seq<Request>, exchange: ExchangeRequest -> ExchangeReply, pageFile: Option<string>)
    ensures var r := Listen(reqs, exchange, pageFile);
            var s := Statuses(Trace(r.steps));
            var k := FirstDecisive(reqs);
            && |s| == (if k < |reqs| then k + 1 else k)
            && (forall i :: 0 <= i < k ==> s[i] == 404)
            && (k < |reqs| ==> s[k] == HandleRequest(reqs[k], exchange, pageFile).status)
  {
    var r := Listen(reqs, exchange, pageFile);
    ListenDecidedByFirstDecisive(reqs, exchange, pageFile);
    TraceStatuses(r.steps);
    var k := FirstDecisive(reqs);
    forall i | 0 <= i < k
      ensures r.steps[i].status == 404
    {
      assert r.steps[i] == HandleRequest(reqs[i], exchange, pageFile);
    }
  }

  /** A code callback after any number of stray requests: exactly one
      exchange, carrying that code and the fixed redirect URI, and the
      listener closes with the exchange's token, whatever comes later. */
  lemma CodeCallbackExchangesOnce(strays: seq<Request>, code: string, later: seq<Request>,
                                  exchange: ExchangeRequest -> ExchangeReply, pageFile: Option<string>)
    requires forall i :: 0 <= i < |strays| ==> IsStray(strays[i])
    requires code != ""
    ensures var r := Listen(strays + [Request(CallbackPath, Some(code))] + later, exchange, pageFile);
            && Exchanges(Trace(r.steps)) == [ExchangeRequest(code, RedirectUri)]
            && r.state == Closed(TokenOfReply(exchange(ExchangeRequest(code, RedirectUri))))
            && |r.steps| == |strays| + 1
            && |Statuses(Trace(r.steps))| == |strays| + 1
            && Statuses(Trace(r.steps))[|strays|] == 200
            && Closes(Trace(r.steps)) == 1
  {
    var reqs := strays + [Request(CallbackPath, Some(code))] + later;
    assert reqs[|strays|] == Request(CallbackPath, Some(code));
    assert forall i :: 0 <= i < |strays| ==> reqs[i] == strays[i];
    FirstDecisiveAt(reqs, |strays|);
    ListenDecidedByFirstDecisive(reqs, exchange, pageFile);
    var r := Listen(reqs, exchange, pageFile);
    forall i | 0 <= i < |r.steps| - 1
      ensures r.steps[i].next.Listening? && r.steps[i].exchanged.None?
    {
      assert r.steps[i] == HandleRequest(reqs[i], exchange, pageFile);
    }
    TraceOfSteps(r.steps);
    TraceStatuses(r.steps);
    assert r.steps[|strays|] == HandleRequest(reqs[|strays|], exchange, pageFile);
  }

  /** Before a code callback, each stray request is answered 404, and the
      callback's answer is the last status. */
  lemma CodeCallbackAfterStrays(strays: seq<Request>, code: string, later: seq<Request>,
                                exchange: ExchangeRequest -> ExchangeReply, pageFile: Option<string>)
    requires forall i :: 0 <= i < |strays| ==> IsStray(strays[i])
    requires code != ""
    ensures var r := Listen(strays + [Request(CallbackPath, Some(code))] + later, exchange, pageFile);
            && |Statuses(Trace(r.steps))| == |strays| + 1
            && forall i :: 0 <= i < |strays| ==> Statuses(Trace(r.steps))[i] == 404
  {
    var reqs := strays + [Request(CallbackPath, Some(code))] + later;
    assert reqs[|strays|] == Request(CallbackPath, Some(code));
    assert forall i :: 0 <= i < |strays| ==> reqs[i] == strays[i];
    FirstDecisiveAt(reqs, |strays|);
    ListenAnswers(reqs, exchange, pageFile);
  }

  /** A callback without a usable code after stray requests: no exchange at
      all, the listener closes with null, and the callback is answered 400
      after a 404 for each stray request. */
  lemma CallbackWithoutCodeNeverExchanges(strays: seq<Request>, code: Option<string>, later: seq<Request>,
                                          exchange: ExchangeRequest -> ExchangeReply, pageFile: Option<string>)
    requires forall i :: 0 <= i < |strays| ==> IsStray(strays[i])
    requires !TruthyOpt(code)
    ensures var r := Listen(strays + [Request(CallbackPath, code)] + later, exchange, pageFile);
            var t := Trace(r.steps);
            && Exchanges(t) == []
            && r.state == Closed(None)
            && |Statuses(t)| == |strays| + 1
            && (forall i :: 0 <= i < |strays| ==> Statuses(t)[i] == 404)
            && Statuses(t)[|strays|] == 400
  {
    var reqs := strays + [Request(CallbackPath, code)] + later;
    assert reqs[|strays|] == Request(CallbackPath, code);
    assert forall i :: 0 <= i < |strays| ==> reqs[i] == strays[i];
    FirstDecisiveAt(reqs, |strays|);
    ListenDecidedByFirstDecisive(reqs, exchange, pageFile);
    ListenAnswers(reqs, exchange, pageFile);
    var r := Listen(reqs, exchange, pageFile);
    forall i | 0 <= i < |r.steps| - 1
      ensures r.steps[i].next.Listening? && r.steps[i].exchanged.None?
    {
      assert r.steps[i] == HandleRequest(reqs[i], exchange, pageFile);
    }
    TraceOfSteps(r.steps);
    TraceStatuses(r.steps);
    assert r.steps[|strays|] == HandleRequest(reqs[|strays|], exchange, pageFile);
  }

  // ---------------------------------------------------------------------
  // getGithubTokenInteractive
  // ---------------------------------------------------------------------

  /** What the browser does once the login URL is opened: the requests that
      reach the listener, the exchange endpoint's behaviour and the success
      page file (None when it is missing or unreadable). */
  datatype Browser = Browser(requests: seq<Request>, exchange: ExchangeRequest -> ExchangeReply, pageFile: Option<string>)

  /** The promise of the interactive flow settles with a token-or-null, or
      stays pending forever (no request ever closed the listener). */
  datatype Completion = Resolved(token: Option<string>) | Pending

  datatype Interactive = Interactive(effects: seq<Effect>, completion: Completion, listenerOpen: bool)

  /** `getGithubTokenInteractive`: bind the listener, then ask for the login
      URL; on failure return null at once, leaving the listener bound;
      otherwise print and open the URL and wait for the listener. */
  function GetGithubTokenInteractive(urlReply: UrlReply, browser: Browser): (r: Interactive)
    ensures |r.effects| >= 2
    ensures r.effects[0] == BindListener(OauthPort) && r.effects[1] == GetLoginUrl(LoginUrlService)
    ensures EndpointUrl(r.effects[1].endpoint) == ApiBase + "auth/with/github"
    ensures urlReply.UrlFailed? ==> r == Interactive([BindListener(OauthPort), GetLoginUrl(LoginUrlService)], Resolved(None), true)
    ensures urlReply.UrlOk? ==>
              && |r.effects| >= 5
              && r.effects[2..5] == [Print(LoginPrompt), Print(urlReply.url), OpenBrowser(urlReply.url)]
    ensures urlReply.UrlOk? ==>
              var l := Listen(browser.requests, browser.exchange, browser.pageFile);
              && (r.listenerOpen <==> l.state.Listening?)
              && r.completion == (if l.state.Closed? then Resolved(l.state.result) else Pending)
    ensures r.completion.Pending? ==> r.listenerOpen
  {
    var start := [BindListener(OauthPort), GetLoginUrl(LoginUrlService)];
    match urlReply
    case UrlFailed =>
      Interactive(start, Resolved(None), true)
    case UrlOk(url) =>
      var w := AwaitLogin(url, browser);
      Interactive(start + w.effects, w.completion, w.listenerOpen)
  }

  /** The part of the interactive flow after the login URL arrived: print
      and open it, then let the listener serve the browser's requests. The
      flow stays pending exactly while the listener is open. */
  function AwaitLogin(url: string, browser: Browser): (r: Interactive)
    ensures |r.effects| >= 3 && r.effects[..3] == [Print(LoginPrompt), Print(url), OpenBrowser(url)]
    ensures r.completion.Pending? <==> r.listenerOpen
    ensures var l := Listen(browser.requests, browser.exchange, browser.pageFile);
            r.completion == if l.state.Closed? then Resolved(l.state.result) else Pending
  {
    AfterListening(url, Listen(browser.requests, browser.exchange, browser.pageFile))
  }

  /** The flow once the listener has run: the URL shown and opened, then
      the listener's trace; pending while it is still listening, otherwise
      resolved with its result. */
  function AfterListening(url: string, l: ListenRun): (r: Interactive)
    ensures |r.effects| >= 3 && r.effects[..3] == [Print(LoginPrompt), Print(url), OpenBrowser(url)]
    ensures r.completion.Pending? <==> r.listenerOpen
    ensures r.listenerOpen <==> l.state.Listening?
    ensures r.completion.Resolved? ==> r.completion.token == l.state.result
  {
    var shown := [Print(LoginPrompt), Print(url), OpenBrowser(url)];
    assert (shown + Trace(l.steps))[..3] == shown;
    match l.state
    case Listening => Interactive(shown + Trace(l.steps), Pending, true)
    case Closed(result) => Interactive(shown + Trace(l.steps), Resolved(result), false)
  }

  /** Showing and opening the URL neither exchanges nor closes anything:
      the flow's exchanges and closures are the listener's. */
  lemma AfterListeningTrace(url: string, l: ListenRun)
    ensures var r := AfterListening(url, l);
            && Closes(r.effects) == Closes(Trace(l.steps))
            && Exchanges(r.effects) == Exchanges(Trace(l.steps))
  {
    var shown := [Print(LoginPrompt), Print(url), OpenBrowser(url)];
    QuietTrace(shown);
    TraceConcat(shown, Trace(l.steps));
  }

  /** The trace of the wait for the browser: the listener is still open
      exactly when it was never closed, at most one code is exchanged, a
      token comes from exactly one exchange, and once a code was exchanged
      the flow resolves with the token of that exchange's reply. */
  lemma AwaitLoginTrace(url: string, browser: Browser)
    ensures var r := AwaitLogin(url, browser);
            && (r.listenerOpen <==> Closes(r.effects) == 0)
            && |Exchanges(r.effects)| <= 1
            && (r.completion.Resolved? && r.completion.token.Some? ==>
                  Truthy(r.completion.token.value) && |Exchanges(r.effects)| == 1)
            && (|Exchanges(r.effects)| == 1 ==>
                  r.completion == Resolved(TokenOfReply(browser.exchange(Exchanges(r.effects)[0]))))
  {
    ListenTrace(browser.requests, browser.exchange, browser.pageFile);
    ListenResultIsExchanged(browser.requests, browser.exchange, browser.pageFile);
    AfterListeningTrace(url, Listen(browser.requests, browser.exchange, browser.pageFile));
  }

  /** The trace of the whole interactive flow: the listener is still bound
      exactly when it was never closed, at most one code is exchanged, a
      token comes from exactly one exchange, and once a code was exchanged
      the flow resolves with the token of that exchange's reply. */
  lemma InteractiveTrace(urlReply: UrlReply, browser: Browser)
    ensures var r := GetGithubTokenInteractive(urlReply, browser);
            && (r.listenerOpen <==> Closes(r.effects) == 0)
            && |Exchanges(r.effects)| <= 1
            && (r.completion.Resolved? && r.completion.token.Some? ==>
                  Truthy(r.completion.token.value) && |Exchanges(r.effects)| == 1)
            && (|Exchanges(r.effects)| == 1 ==>
                  r.completion == Resolved(TokenOfReply(browser.exchange(Exchanges(r.effects)[0]))))
  {
    var start := [BindListener(OauthPort), GetLoginUrl(LoginUrlService)];
    QuietTrace(start);
    if urlReply.UrlOk? {
      var w := AwaitLogin(urlReply.url, browser);
      AwaitLoginTrace(urlReply.url, browser);
      TraceConcat(start, w.effects);
    }
  }

  // ---------------------------------------------------------------------
  // getGithubToken
  // ---------------------------------------------------------------------

  /** Everything `getGithubToken` consults: `GITHUB_TOKEN`, the home
      directory, the token file, the login-URL reply, the browser and whether
      writing the token file succeeds. */
  datatype Machine = Machine(envToken: Option<string>, home: string, cache: CacheFile,
                             urlReply: UrlReply, browser: Browser, writeSucceeds: bool)

  /** `getGithubToken`: a truthy environment token verbatim; else the
      trimmed token file; else the interactive login, whose truthy token is
      written trimmed and returned trimmed — or null if the write throws.
      A login that yields null writes nothing and returns null; a login
      that never settles leaves the call pending. */
  function GetGithubToken(m: Machine): (r: Run<Option<string>>)
    ensures TruthyOpt(m.envToken) ==> r == Run([], Returned(m.envToken))
    ensures !TruthyOpt(m.envToken) && m.cache.Present? ==>
              r == Run([CacheExists(CachePath(m.home)), ReadCache(CachePath(m.home))],
                       Returned(Some(Trim(m.cache.contents))))
    ensures !TruthyOpt(m.envToken) && m.cache.Unreadable? ==>
              r == Run([CacheExists(CachePath(m.home)), ReadCache(CachePath(m.home))], Threw(CacheUnreadable))
    ensures !TruthyOpt(m.envToken) && m.cache.Missing? ==>
              && |r.effects| >= 3
              && r.effects[0] == CacheExists(CachePath(m.home))
              && r.effects[1] == BindListener(OauthPort)
              && r.effects[2] == GetLoginUrl(LoginUrlService)
              && (r.outcome.Returned? && r.outcome.value.Some? ==>
                    && r.effects[|r.effects| - 1] == WriteCache(CachePath(m.home), r.outcome.value.value)
                    && IsTrimmed(r.outcome.value.value))
    ensures !TruthyOpt(m.envToken) && m.cache.Missing? ==>
              var i := GetGithubTokenInteractive(m.urlReply, m.browser);
              && (i.completion.Pending? ==> r == Run([CacheExists(CachePath(m.home))] + i.effects, Hangs))
              && (i.completion == Resolved(None) ==>
                    r == Run([CacheExists(CachePath(m.home))] + i.effects, Returned(None)))
  {
    if TruthyOpt(m.envToken) then
      Run([], Returned(m.envToken))
    else
      var path := CachePath(m.home);
      match m.cache
      case Present(contents) =>
        Run([CacheExists(path), ReadCache(path)], Returned(Some(Trim(contents))))
      case Unreadable =>
        Run([CacheExists(path), ReadCache(path)], Threw(CacheUnreadable))
      case Missing =>
        var i := GetGithubTokenInteractive(m.urlReply, m.browser);
        var pre := [CacheExists(path)] + i.effects;
        match i.completion
        case Pending => Run(pre, Hangs)
        case Resolved(token) =>
          if TruthyOpt(token) then
            var saved := Trim(token.value);
            Run(pre + [WriteCache(path, saved)], Returned(if m.writeSucceeds then Some(saved) else None))
          else
            Run(pre, Returned(None))
  }

  /** The token a first login persisted is what a later call returns, read
      back from the file with no listener and no network. */
  lemma PersistedTokenIsReused(m: Machine, t: string)
    requires !TruthyOpt(m.envToken) && m.cache.Missing? && m.writeSucceeds
    requires GetGithubToken(m).outcome == Returned(Some(t))
    ensures WriteCache(CachePath(m.home), t) in GetGithubToken(m).effects
    ensures GetGithubToken(m.(cache := Present(t))) ==
            Run([CacheExists(CachePath(m.home)), ReadCache(CachePath(m.home))], Returned(Some(t)))
  {
    var i := GetGithubTokenInteractive(m.urlReply, m.browser);
    var saved := Trim(i.completion.token.value);
    TrimIdempotent(i.completion.token.value);
    assert Trim(t) == t;
  }

  /** A login whose token cannot be written yields null, although the
      token was obtained and a write was attempted. */
  lemma WriteFailureLosesToken(m: Machine)
    requires !TruthyOpt(m.envToken) && m.cache.Missing? && !m.writeSucceeds
    requires var i := GetGithubTokenInteractive(m.urlReply, m.browser);
             i.completion.Resolved? && i.completion.token.Some?
    ensures GetGithubToken(m).outcome == Returned(None)
    ensures exists c :: WriteCache(CachePath(m.home), c) in GetGithubToken(m).effects
  {
    var i := GetGithubTokenInteractive(m.urlReply, m.browser);
    var r := GetGithubToken(m);
    assert r.effects[|r.effects| - 1] == WriteCache(CachePath(m.home), Trim(i.completion.token.value));
  }

  /** When the login URL cannot be fetched the result is null, nothing is
      written, and the listener bound before the request is left open. */
  lemma UrlFailureLeavesListenerBound(m: Machine)
    requires !TruthyOpt(m.envToken) && m.cache.Missing? && m.urlReply.UrlFailed?
    ensures GetGithubToken(m) ==
            Run([CacheExists(CachePath(m.home)), BindListener(OauthPort), GetLoginUrl(LoginUrlService)], Returned(None))
    ensures Closes(GetGithubToken(m).effects) == 0
  {
    QuietTrace([CacheExists(CachePath(m.home)), BindListener(OauthPort), GetLoginUrl(LoginUrlService)]);
  }

  /** A browser that sends only the code callback: one exchange of that
      code, and the listener closes with its token. */
  lemma SingleCodeCallback(code: string, exchange: ExchangeRequest -> ExchangeReply, pageFile: Option<string>)
    requires code != ""
    ensures var r := Listen([Request(CallbackPath, Some(code))], exchange, pageFile);
            && Exchanges(Trace(r.steps)) == [ExchangeRequest(code, RedirectUri)]
            && r.state == Closed(TokenOfReply(exchange(ExchangeRequest(code, RedirectUri))))
  {
    var reqs := [Request(CallbackPath, Some(code))];
    assert reqs == [] + [Request(CallbackPath, Some(code))] + [];
    CodeCallbackExchangesOnce([], code, [], exchange, pageFile);
  }

  /** The interactive part of the login scenario below. */
  lemma LoginScenarioInteractive(exchange: ExchangeRequest -> ExchangeReply, pageFile: Option<string>)
    requires exchange(ExchangeRequest("abc123", RedirectUri)) == ExchangeOk(Data(Some("tok_999")))
    ensures var i := GetGithubTokenInteractive(UrlOk("https://provider/login?x=1"),
                                               Browser([Request(CallbackPath, Some("abc123"))], exchange, pageFile));
            && i.completion == Resolved(Some("tok_999"))
            && Exchanges(i.effects) == [ExchangeRequest("abc123", RedirectUri)]
  {
    var url := "https://provider/login?x=1";
    var reqs := [Request(CallbackPath, Some("abc123"))];
    SingleCodeCallback("abc123", exchange, pageFile);
    var l := Listen(reqs, exchange, pageFile);
    var start := [BindListener(OauthPort), GetLoginUrl(LoginUrlService)];
    var shown := [Print(LoginPrompt), Print(url), OpenBrowser(url)];
    QuietTrace(start);
    QuietTrace(shown);
    var b := Browser(reqs, exchange, pageFile);
    var w := AwaitLogin(url, b);
    AfterListeningTrace(url, l);
    TraceConcat(start, w.effects);
    InteractiveTrace(UrlOk(url), b);
  }

  /** A token from the interactive login is written trimmed, as the last
      effect, and returned trimmed; the exchanges are the login's own. */
  lemma InteractiveTokenPersisted(m: Machine, t: string)
    requires !TruthyOpt(m.envToken) && m.cache.Missing? && m.writeSucceeds
    requires GetGithubTokenInteractive(m.urlReply, m.browser).completion == Resolved(Some(t))
    ensures var i := GetGithubTokenInteractive(m.urlReply, m.browser);
            var r := GetGithubToken(m);
            && r == Run([CacheExists(CachePath(m.home))] + i.effects + [WriteCache(CachePath(m.home), Trim(t))],
                        Returned(Some(Trim(t))))
            && Exchanges(r.effects) == Exchanges(i.effects)
  {
    var i := GetGithubTokenInteractive(m.urlReply, m.browser);
    FileAccessAddsNoExchange(CachePath(m.home), i.effects, Trim(t));
  }

  /** Checking for and writing the token file around the login adds no
      exchange to the trace. */
  lemma FileAccessAddsNoExchange(path: string, login: seq<Effect>, saved: string)
    ensures Exchanges([CacheExists(path)] + login + [WriteCache(path, saved)]) == Exchanges(login)
  {
    var head := [CacheExists(path)];
    var tail := [WriteCache(path, saved)];
    QuietTrace(head);
    QuietTrace(tail);
    TraceConcat(head, login);
    TraceConcat(head + login, tail);
  }

  /** The end-to-end login: no environment token and no file; the broker
      hands out a URL; the browser's callback brings `code=abc123`; the
      exchange answers `tok_999` to that code and this redirect URI. The
      token is returned, is exactly what the file receives, and came from
      the only exchange made. */
  lemma LoginScenario(home: string, exchange: ExchangeRequest -> ExchangeReply, pageFile: Option<string>)
    requires exchange(ExchangeRequest("abc123", RedirectUri)) == ExchangeOk(Data(Some("tok_999")))
    ensures var m := Machine(None, home, Missing, UrlOk("https://provider/login?x=1"),
                             Browser([Request(CallbackPath, Some("abc123"))], exchange, pageFile), true);
            var r := GetGithubToken(m);
            && r.outcome == Returned(Some("tok_999"))
            && r.effects[|r.effects| - 1] == WriteCache(CachePath(home), "tok_999")
            && Exchanges(r.effects) == [ExchangeRequest("abc123", RedirectUri)]
  {
    var m := Machine(None, home, Missing, UrlOk("https://provider/login?x=1"),
                     Browser([Request(CallbackPath, Some("abc123"))], exchange, pageFile), true);
    var tok := "tok_999";
    TrimOfTrimmed(tok);
    LoginScenarioInteractive(exchange, pageFile);
    InteractiveTokenPersisted(m, tok);
  }
}

=== FILE: github_service.dfy ===
/**
 `GithubService`: the token lookup of `getOrInitToken` (environment, token
 file, then an optional auth service), and the guards in front of the two
 REST calls `createRepo` and `createPullRequest`: resolve the token, check
 it, check owner and repository (pull requests only), send the request,
 and turn the reply into a URL or a thrown error. The `fetch` reply is an
 input.
 */
module GithubService {
  import opened JsRuntime
  import opened Io
  import AuthService

  const ConfigFileName := "/.gitbruv_token"
  const TokenNotFoundNotice :=
    "GitHub access token not found. Please run `gitbruv auth` to authenticate with GitHub and enable features like remote repo creation."
  const UserReposUrl := "https://api.github.com/user/repos"
  const GithubAccept := "application/vnd.github+json"

  function ConfigPath(home: string): string {
    home + ConfigFileName
  }

  /** The optional `authService` argument: absent (or falsy), present but
      without a `getGithubToken` function, or one whose `getGithubToken`
      call did what `run` records. */
  datatype AuthDelegate = NoAuthService | WithoutGetGithubToken | Delegate(run: Run<Option<string>>)

  /** Everything `getOrInitToken` consults. */
  datatype World = World(envToken: Option<string>, home: string, cache: CacheFile,
                         auth: AuthDelegate, writeSucceeds: bool)

  /** `getOrInitToken`: a truthy environment token verbatim; else the
      trimmed token file; else (after a notice) the auth service's truthy
      token, written trimmed and returned trimmed. The write is not guarded,
      so its failure throws. */
  function GetOrInitToken(w: World): (r: Run<Option<string>>)
    ensures TruthyOpt(w.envToken) ==> r == Run([], Returned(w.envToken))
    ensures !TruthyOpt(w.envToken) && w.cache.Present? ==>
              r == Run([CacheExists(ConfigPath(w.home)), ReadCache(ConfigPath(w.home))],
                       Returned(Some(Trim(w.cache.contents))))
    ensures !TruthyOpt(w.envToken) && w.cache.Unreadable? ==>
              r == Run([CacheExists(ConfigPath(w.home)), ReadCache(ConfigPath(w.home))], Threw(CacheUnreadable))
    ensures !TruthyOpt(w.envToken) && w.cache.Missing? && !w.auth.Delegate? ==>
              r == Run([CacheExists(ConfigPath(w.home)), Print(TokenNotFoundNotice)], Returned(None))
    ensures !TruthyOpt(w.envToken) && w.cache.Missing? && w.auth.Delegate? ==>
              var d := w.auth.run;
              && |r.effects| >= 2 + |d.effects|
              && r.effects[..2 + |d.effects|] == [CacheExists(ConfigPath(w.home)), Print(TokenNotFoundNotice)] + d.effects
              && (d.outcome.Returned? && TruthyOpt(d.outcome.value) ==>
                    && r.effects == [CacheExists(ConfigPath(w.home)), Print(TokenNotFoundNotice)] + d.effects
                                    + [WriteCache(ConfigPath(w.home), Trim(d.outcome.value.value))]
                    && r.outcome == (if w.writeSucceeds then Returned(Some(Trim(d.outcome.value.value)))
                                     else Threw(CacheWriteFailed)))
              && (!(d.outcome.Returned? && TruthyOpt(d.outcome.value)) ==>
                    r.effects == [CacheExists(ConfigPath(w.home)), Print(TokenNotFoundNotice)] + d.effects)
              && (d.outcome.Returned? && !TruthyOpt(d.outcome.value) ==> r.outcome == Returned(None))
              && (!d.outcome.Returned? ==> r.outcome == d.outcome)
  {
    if TruthyOpt(w.envToken) then
      Run([], Returned(w.envToken))
    else
      var path := ConfigPath(w.home);
      match w.cache
      case Present(contents) =>
        Run([CacheExists(path), ReadCache(path)], Returned(Some(Trim(contents))))
      case Unreadable =>
        Run([CacheExists(path), ReadCache(path)], Threw(CacheUnreadable))
      case Missing =>
        var notice := [CacheExists(path), Print(TokenNotFoundNotice)];
        match w.auth
        case NoAuthService => Run(notice, Returned(None))
        case WithoutGetGithubToken => Run(notice, Returned(None))
        case Delegate(d) =>
          var pre := notice + d.effects;
          match d.outcome
          case Hangs => Run(pre, Hangs)
          case Threw(e) => Run(pre, Threw(e))
          case Returned(token) =>
            if TruthyOpt(token) then
              var saved := Trim(token.value);
              assert (pre + [WriteCache(path, saved)])[..|pre|] == pre;
              Run(pre + [WriteCache(path, saved)],
                  if w.writeSucceeds then Returned(Some(saved)) else Threw(CacheWriteFailed))
            else
              Run(pre, Returned(None))
  }

  /** With `AuthService` itself as the delegate, on the same environment,
      home and token file (so a write fails for both or for neither),
      `getOrInitToken` settles exactly as `getGithubToken` does, except that an empty token
      from the login (a whitespace-only access token, trimmed) becomes null.
      An empty token read from the file is returned as it is by both. */
  lemma DelegatingToAuthService(m: AuthService.Machine)
    ensures var a := AuthService.GetGithubToken(m);
            var r := GetOrInitToken(World(m.envToken, m.home, m.cache, Delegate(a), m.writeSucceeds));
            r.outcome == if m.cache.Missing? && a.outcome == Returned(Some("")) then Returned(None) else a.outcome
  {
    var a := AuthService.GetGithubToken(m);
    var w := World(m.envToken, m.home, m.cache, Delegate(a), m.writeSucceeds);
    if !TruthyOpt(m.envToken) && m.cache.Missing? {
      if a.outcome.Returned? && TruthyOpt(a.outcome.value) {
        var t := a.outcome.value.value;
        TrimOfTrimmed(t);
        assert GetOrInitToken(w).outcome == Returned(Some(Trim(t)));
      }
    }
  }

  // ---------------------------------------------------------------------
  // createRepo / createPullRequest
  // ---------------------------------------------------------------------

  /** A REST call: how its token was resolved, the request it sent (if
      any), and how it settled. */
  datatype RestCall<+T> = RestCall(resolution: Run<Option<string>>, request: Option<HttpRequest>, outcome: Outcome<T>)

  /** The Authorization header value for a token. */
  function Authorization(token: string): string {
    "token " + token
  }

  /** Send `request` and read the reply: a rejected fetch or a non-ok status
      throws (`Failed to create <what>: <text>`), an ok reply yields its
      `html_url`. */
  function Send(token: Run<Option<string>>, request: HttpRequest, what: string, reply: HttpReply): (c: RestCall<string>)
    ensures c.request == Some(request) && c.resolution == token
    ensures c.outcome.Returned? <==> reply.HttpResponse? && reply.ok
    ensures c.outcome.Returned? ==> c.outcome.value == reply.htmlUrl
    ensures reply.HttpResponse? && !reply.ok ==>
              c.outcome.Threw? && Message(c.outcome.error) == "Failed to create " + what + ": " + reply.text
    ensures reply.NetworkError? ==> c.outcome == Threw(FetchFailed)
  {
    match reply
    case NetworkError => RestCall(token, Some(request), Threw(FetchFailed))
    case HttpResponse(ok, text, htmlUrl) =>
      if ok then RestCall(token, Some(request), Returned(htmlUrl))
      else RestCall(token, Some(request), Threw(CreateFailed(what, text)))
  }

  /** Two outcomes that failed the same way: both pending forever, or both
      threw the same error. */
  predicate SameFailure<T, U>(a: Outcome<T>, b: Outcome<U>) {
    (a.Hangs? && b.Hangs?) || (a.Threw? && b.Threw? && a.error == b.error)
  }

  /** The token a resolution produced, when it produced a truthy one. */
  predicate HasToken(res: Run<Option<string>>) {
    res.outcome.Returned? && TruthyOpt(res.outcome.value)
  }

  /** Once a request went out, the call settles by its reply: an ok reply
      yields its `html_url`, a non-ok reply throws `Failed to create <what>:
      <text>`, and a rejected fetch throws. */
  predicate SentReplyHandled(c: RestCall<string>, what: string, reply: HttpReply) {
    && (reply.NetworkError? ==> c.outcome == Threw(FetchFailed))
    && (reply.HttpResponse? && reply.ok ==> c.outcome == Returned(reply.htmlUrl))
    && (reply.HttpResponse? && !reply.ok ==>
          c.outcome.Threw? && Message(c.outcome.error) == "Failed to create " + what + ": " + reply.text)
  }

  /** `createRepo(repoName, isPrivate, authService)`. */
  function CreateRepo(w: World, repoName: string, isPrivate: bool, reply: HttpReply): (c: RestCall<string>)
    ensures c.resolution == GetOrInitToken(w)
    ensures c.request.Some? <==> HasToken(c.resolution)
    ensures c.request.Some? ==>
              c.request.value == HttpRequest(UserReposUrl, Authorization(c.resolution.outcome.value.value),
                                             GithubAccept, RepoPayload(repoName, isPrivate))
    ensures c.resolution.outcome.Returned? && !HasToken(c.resolution) ==> c.outcome == Threw(TokenUnavailable)
    ensures !c.resolution.outcome.Returned? ==> c.request.None? && SameFailure(c.outcome, c.resolution.outcome)
    ensures c.outcome.Returned? ==> c.request.Some? && reply.HttpResponse? && reply.ok && reply.htmlUrl == c.outcome.value
    ensures c.request.Some? ==> SentReplyHandled(c, "repo", reply)
  {
    var res := GetOrInitToken(w);
    match res.outcome
    case Hangs => RestCall(res, None, Hangs)
    case Threw(e) => RestCall(res, None, Threw(e))
    case Returned(token) =>
      if !TruthyOpt(token) then
        RestCall(res, None, Threw(TokenUnavailable))
      else
        Send(res, HttpRequest(UserReposUrl, Authorization(token.value), GithubAccept, RepoPayload(repoName, isPrivate)),
             "repo", reply)
  }

  /** The endpoint for pull requests of `owner/repo`. */
  function PullsUrl(owner: string, repo: string): string {
    "https://api.github.com/repos/" + owner + "/" + repo + "/pulls"
  }

  /** `createPullRequest(owner, repo, head, base, title, body, authService)`. */
  function CreatePullRequest(w: World, owner: string, repo: string, head: string, base: string,
                             title: string, body: string, reply: HttpReply): (c: RestCall<string>)
    ensures c.resolution == GetOrInitToken(w)
    ensures c.request.Some? <==> HasToken(c.resolution) && owner != "" && repo != ""
    ensures c.request.Some? ==>
              c.request.value == HttpRequest(PullsUrl(owner, repo), Authorization(c.resolution.outcome.value.value),
                                             GithubAccept, PullPayload(title, head, base, body))
    ensures c.resolution.outcome.Returned? && !HasToken(c.resolution) ==> c.outcome == Threw(TokenUnavailable)
    ensures HasToken(c.resolution) && (owner == "" || repo == "") ==> c.outcome == Threw(OwnerRepoMissing)
    ensures !c.resolution.outcome.Returned? ==> c.request.None? && SameFailure(c.outcome, c.resolution.outcome)
    ensures c.outcome.Returned? ==> c.request.Some? && reply.HttpResponse? && reply.ok && reply.htmlUrl == c.outcome.value
    ensures c.request.Some? ==> SentReplyHandled(c, "pull request", reply)
  {
    var res := GetOrInitToken(w);
    match res.outcome
    case Hangs => RestCall(res, None, Hangs)
    case Threw(e) => RestCall(res, None, Threw(e))
    case Returned(token) =>
      if !TruthyOpt(token) then
        RestCall(res, None, Threw(TokenUnavailable))
      else if owner == "" || repo == "" then
        RestCall(res, None, Threw(OwnerRepoMissing))
      else
        Send(res, HttpRequest(PullsUrl(owner, repo), Authorization(token.value), GithubAccept,
                              PullPayload(title, head, base, body)),
             "pull request", reply)
  }
}

=== FILE: io.dfy ===
/**
 The vocabulary shared by the two services: what the outside world can
 answer (oracle values standing for HTTP replies, browser redirects and the
 token file), what a run does to the outside world (an effect trace), and
 how a JavaScript `async` call ends (a value, a thrown error, or never).
 */
module Io {
  import opened JsRuntime

  /** A request reaching the local callback listener, after `new URL(...)`:
      its path and its `code` query parameter (`searchParams.get('code')`,
      None for a missing parameter); `Unparseable` when building the URL
      throws. */
  datatype Request = Request(path: string, code: Option<string>) | Unparseable

  /** The body posted to the code-exchange endpoint. */
  datatype ExchangeRequest = ExchangeRequest(code: string, redirectUri: string)

  /** `response.data` of a successful exchange: falsy (`NoData`) or an object
      whose `access_token` field is a string or missing/null (None). */
  datatype ReplyData = NoData | Data(accessToken: Option<string>)

  /** The exchange call either throws (transport error or non-2xx status)
      or yields a response body. */
  datatype ExchangeReply = ExchangeFailed | ExchangeOk(data: ReplyData)

  /** The login-URL request either throws or yields `response.data.url`. */
  datatype UrlReply = UrlFailed | UrlOk(url: string)

  /** The token file: absent, present with contents, or present but
      `readFileSync` throws on it. */
  datatype CacheFile = Missing | Present(contents: string) | Unreadable

  /** JSON body of the two GitHub REST calls. */
  datatype Payload =
    | RepoPayload(name: string, isPrivate: bool)
    | PullPayload(title: string, head: string, base: string, body: string)

  /** A `fetch` POST with its Authorization and Accept headers. */
  datatype HttpRequest = HttpRequest(url: string, authorization: string, accept: string, payload: Payload)

  /** `fetch` either rejects or resolves to a response with `ok`, its text
      and the `html_url` of its JSON body. */
  datatype HttpReply = NetworkError | HttpResponse(ok: bool, text: string, htmlUrl: string)

  /** The two gitbruv server endpoints of the login: the one handing out
      the login URL and the one exchanging a code for a token. */
  datatype Endpoint = LoginUrlService | TokenExchangeService

  /** The bodies the callback listener answers with: the success page (the
      page file's contents when it could be read), the no-code page, the
      server-error text, or an empty body. */
  datatype Page = LoginSuccessful(file: Option<string>) | NoCodeFound | ServerError | NoBody

  /** One observable action, in the order it happens. */
  datatype Effect =
    | BindListener(port: nat)
    | GetLoginUrl(endpoint: Endpoint)
    | Print(text: string)
    | OpenBrowser(url: string)
    | PostExchange(endpoint: Endpoint, request: ExchangeRequest)
    | Respond(status: nat, page: Page)
    | CloseListener
    | CacheExists(path: string)
    | ReadCache(path: string)
    | WriteCache(path: string, contents: string)

  /** The errors a call can throw. */
  datatype Error =
    | CacheUnreadable
    | CacheWriteFailed
    | TokenUnavailable
    | OwnerRepoMissing
    | FetchFailed
    | CreateFailed(what: string, text: string)

  /** The message of each error: the source's own text for the errors it
      constructs; a description for the ones Node.js raises (file access,
      `fetch` rejection), whose text is not modelled. */
  function Message(e: Error): string {
    match e
    case CacheUnreadable => "cannot read the token file"
    case CacheWriteFailed => "cannot write the token file"
    case TokenUnavailable =>
      "GitHub access token not found or could not be retrieved. Please run `gitbruv auth` to authenticate."
    case OwnerRepoMissing => "Owner and repository name must be provided to create a pull request."
    case FetchFailed => "fetch failed"
    case CreateFailed(what, text) => "Failed to create " + what + ": " + text
  }

  /** How an awaited call settles: a value, a thrown error, or never (a
      promise that stays pending). */
  datatype Outcome<+T> = Returned(value: T) | Threw(error: Error) | Hangs

  /** What a call did, in order, and how it settled. */
  datatype Run<+T> = Run(effects: seq<Effect>, outcome: Outcome<T>)

  /** The code-exchange calls in a trace, in order. */
  function Exchanges(t: seq<Effect>): seq<ExchangeRequest> {
    if t == [] then []
    else (if t[0].PostExchange? then [t[0].request] else []) + Exchanges(t[1..])
  }

  /** The status codes answered in a trace, in order. */
  function Statuses(t: seq<Effect>): seq<nat> {
    if t == [] then []
    else (if t[0].Respond? then [t[0].status] else []) + Statuses(t[1..])
  }

  /** How many times the listener was closed in a trace. */
  function Closes(t: seq<Effect>): nat {
    if t == [] then 0
    else (if t[0].CloseListener? then 1 else 0) + Closes(t[1..])
  }

  /** A trace with no exchange, no answer and no closure. */
  predicate Quiet(t: seq<Effect>) {
    forall i :: 0 <= i < |t| ==> !t[i].PostExchange? && !t[i].Respond? && !t[i].CloseListener?
  }

  lemma QuietTrace(t: seq<Effect>)
    requires Quiet(t)
    ensures Exchanges(t) == [] && Statuses(t) == [] && Closes(t) == 0
  {
    if t != [] {
      QuietTrace(t[1..]);
    }
  }

  lemma TraceConcat(a: seq<Effect>, b: seq<Effect>)
    ensures Exchanges(a + b) == Exchanges(a) + Exchanges(b)
    ensures Statuses(a + b) == Statuses(a) + Statuses(b)
    ensures Closes(a + b) == Closes(a) + Closes(b)
  {
    if a != [] {
      assert (a + b)[1..] == a[1..] + b;
      TraceConcat(a[1..], b);
    } else {
      assert a + b == b;
    }
  }
}

=== FILE: js_runtime.dfy ===
/**
 The slice of the JavaScript runtime the services lean on, stated over
 Dafny strings (sequences of Unicode scalar values): truthiness of strings,
 `String.prototype.trim`, `parseInt` with the radix omitted, the decimal
 rendering of a non-negative integer, and `slice(0, end)`.
 */
module JsRuntime {

  /** A value that may be `null`/`undefined` (None) or present (Some). */
  datatype Option<+T> = None | Some(value: T)

  /** A string is truthy in JavaScript exactly when it is not empty. */
  predicate Truthy(s: string) {
    s != ""
  }

  /** A string-or-null is truthy when it is present and not empty. */
  predicate TruthyOpt(o: Option<string>) {
    o.Some? && Truthy(o.value)
  }

  // ---------------------------------------------------------------------
  // Whitespace and trim
  // ---------------------------------------------------------------------

  /** The code points ECMAScript counts as WhiteSpace or LineTerminator
      (sections 12.2 and 12.3 of ECMA-262): these are what `trim` strips
      and what `parseInt` skips. */
  predicate IsWhitespace(c: char) {
    || c == '\t' || c == '\n' || c == '\U{000B}' || c == '\U{000C}' || c == '\r'
    || c == ' ' || c == '\U{00A0}' || c == '\U{1680}'
    || ('\U{2000}' <= c <= '\U{200A}')
    || c == '\U{2028}' || c == '\U{2029}' || c == '\U{202F}' || c == '\U{205F}'
    || c == '\U{3000}' || c == '\U{FEFF}'
  }

  /** Every character of `s[lo..hi]` is whitespace. */
  predicate SpaceBetween(s: string, lo: nat, hi: nat)
    requires lo <= hi <= |s|
  {
    forall i :: lo <= i < hi ==> IsWhitespace(s[i])
  }

  predicate AllWhitespace(s: string) {
    SpaceBetween(s, 0, |s|)
  }

  /** Neither end of `s` is whitespace. */
  predicate IsTrimmed(s: string) {
    s == [] || (!IsWhitespace(s[0]) && !IsWhitespace(s[|s| - 1]))
  }

  /** Where the whitespace run starting at `i` ends. */
  function SpaceEnd(s: string, i: nat): (n: nat)
    requires i <= |s|
    ensures i <= n <= |s|
    ensures SpaceBetween(s, i, n)
    ensures n < |s| ==> !IsWhitespace(s[n])
    decreases |s| - i
  {
    if i < |s| && IsWhitespace(s[i]) then SpaceEnd(s, i + 1) else i
  }

  /** Where the whitespace run ending at `j` starts. */
  function SpaceStart(s: string, j: nat): (m: nat)
    requires j <= |s|
    ensures m <= j
    ensures SpaceBetween(s, m, j)
    ensures 0 < m ==> !IsWhitespace(s[m - 1])
    decreases j
  {
    if 0 < j && IsWhitespace(s[j - 1]) then SpaceStart(s, j - 1) else j
  }

  /** `String.prototype.trim`: `s` with whitespace removed at both ends. */
  function Trim(s: string): (r: string)
    ensures IsTrimmed(r)
    ensures |r| <= |s|
  {
    var lo := SpaceEnd(s, 0);
    var hi := SpaceStart(s, |s|);
    if hi <= lo then [] else s[lo..hi]
  }

  /** A whitespace run from `i` up to a non-whitespace character at `k` (or
      the end) ends at `k`. */
  lemma {:induction false} SpaceEndAt(s: string, i: nat, k: nat)
    requires i <= k <= |s|
    requires SpaceBetween(s, i, k)
    requires k < |s| ==> !IsWhitespace(s[k])
    ensures SpaceEnd(s, i) == k
    decreases k - i
  {
    if i < k {
      SpaceEndAt(s, i + 1, k);
    }
  }

  /** A whitespace run down to `j` from a non-whitespace character at
      `k - 1` (or the start) starts at `k`. */
  lemma {:induction false} SpaceStartAt(s: string, j: nat, k: nat)
    requires k <= j <= |s|
    requires SpaceBetween(s, k, j)
    requires 0 < k ==> !IsWhitespace(s[k - 1])
    ensures SpaceStart(s, j) == k
    decreases j - k
  {
    if k < j {
      SpaceStartAt(s, j - 1, k);
    }
  }

  /** Trim is determined by its framing: whenever `s` splits into whitespace,
      a trimmed middle and whitespace, the middle is what `Trim` returns. */
  lemma TrimFraming(s: string, lo: nat, hi: nat)
    requires lo <= hi <= |s|
    requires SpaceBetween(s, 0, lo)
    requires SpaceBetween(s, hi, |s|)
    requires lo < hi ==> !IsWhitespace(s[lo]) && !IsWhitespace(s[hi - 1])
    ensures Trim(s) == s[lo..hi]
  {
    if lo == hi {
      SpaceEndAt(s, 0, |s|);
    } else {
      SpaceEndAt(s, 0, lo);
      SpaceStartAt(s, |s|, hi);
    }
  }

  /** A string already trimmed is left as it is. */
  lemma TrimOfTrimmed(s: string)
    requires IsTrimmed(s)
    ensures Trim(s) == s
  {
    TrimFraming(s, 0, |s|);
  }

  /** Trimming twice is trimming once. */
  lemma TrimIdempotent(s: string)
    ensures Trim(Trim(s)) == Trim(s)
  {
    TrimOfTrimmed(Trim(s));
  }

  /** A string padded with whitespace around a trimmed core trims to the core. */
  lemma TrimPadded(before: string, core: string, after: string)
    requires AllWhitespace(before) && AllWhitespace(after) && IsTrimmed(core)
    ensures Trim(before + core + after) == core
  {
    var s := before + core + after;
    var lo, hi := |before|, |before| + |core|;
    assert SpaceBetween(s, hi, |s|) by {
      forall i | hi <= i < |s| ensures IsWhitespace(s[i]) {
        assert s[i] == after[i - hi];
      }
    }
    if lo < hi {
      assert s[lo] == core[0] && s[hi - 1] == core[|core| - 1];
    }
    assert s[lo..hi] == core;
    TrimFraming(s, lo, hi);
  }

  // ---------------------------------------------------------------------
  // Decimal rendering of integers and parseInt
  // ---------------------------------------------------------------------

  predicate IsDecimalDigit(c: char) {
    '0' <= c <= '9'
  }

  /** A digit of the given radix (10 or 16, the two radixes `parseInt`
      picks when called without one). */
  predicate IsDigitIn(c: char, radix: nat) {
    if radix == 16 then IsDecimalDigit(c) || ('a' <= c <= 'f') || ('A' <= c <= 'F')
    else IsDecimalDigit(c)
  }

  function DigitValue(c: char): nat {
    if IsDecimalDigit(c) then c as int - '0' as int
    else if 'a' <= c <= 'f' then c as int - 'a' as int + 10
    else if 'A' <= c <= 'F' then c as int - 'A' as int + 10
    else 0
  }

  function DigitChar(d: nat): (c: char)
    requires d < 10
    ensures IsDecimalDigit(c) && DigitValue(c) == d
  {
    ('0' as int + d) as char
  }

  /** Length of the longest prefix of `s` made of digits of `radix`. */
  function DigitRun(s: string, radix: nat): (n: nat)
    ensures n <= |s|
    ensures forall i :: 0 <= i < n ==> IsDigitIn(s[i], radix)
    ensures n < |s| ==> !IsDigitIn(s[n], radix)
  {
    if s != [] && IsDigitIn(s[0], radix) then 1 + DigitRun(s[1..], radix) else 0
  }

  /** The value of a digit string, most significant digit first. */
  function DigitsValue(z: string, radix: nat): nat {
    if z == [] then 0
    else DigitsValue(z[..|z| - 1], radix) * radix + DigitValue(z[|z| - 1])
  }

  /** How a template literal renders a non-negative integer: decimal digits,
      no sign, no leading zero. */
  function Show(n: nat): (s: string)
    ensures |s| >= 1
    ensures forall i :: 0 <= i < |s| ==> IsDecimalDigit(s[i])
    ensures n > 0 <==> s[0] != '0'
  {
    if n < 10 then [DigitChar(n)] else Show(n / 10) + [DigitChar(n % 10)]
  }

  /** `parseInt(s)` with the radix omitted (section 19.2.5 of ECMA-262):
      skip leading whitespace, take an optional sign, switch to radix 16
      after a `0x`/`0X` prefix, then read the longest run of digits;
      no digits gives NaN, which is None here. */
  function ParseInt(s: string): (r: Option<int>)
    ensures AllWhitespace(s) ==> r.None?
    ensures r.Some? ==> SpaceEnd(s, 0) < |s|
  {
    var t := s[SpaceEnd(s, 0)..];
    var negative := t != [] && t[0] == '-';
    var u := if t != [] && (t[0] == '+' || t[0] == '-') then t[1..] else t;
    var hex := |u| >= 2 && u[0] == '0' && (u[1] == 'x' || u[1] == 'X');
    var radix := if hex then 16 else 10;
    var body := if hex then u[2..] else u;
    var n := DigitRun(body, radix);
    if n == 0 then None
    else
      var v: int := DigitsValue(body[..n], radix);
      Some(if negative then -v else v)
  }

  lemma {:induction false} ShowValue(n: nat)
    ensures DigitsValue(Show(n), 10) == n
  {
    if n >= 10 {
      var s := Show(n);
      assert s[..|s| - 1] == Show(n / 10);
      ShowValue(n / 10);
    }
  }

  lemma {:induction false} DigitRunOfDigits(z: string, rest: string, radix: nat)
    requires forall i :: 0 <= i < |z| ==> IsDigitIn(z[i], radix)
    requires rest == [] || !IsDigitIn(rest[0], radix)
    ensures DigitRun(z + rest, radix) == |z|
  {
    if z != [] {
      assert (z + rest)[1..] == z[1..] + rest;
      DigitRunOfDigits(z[1..], rest, radix);
    } else {
      assert z + rest == rest;
    }
  }

  /** With no sign and no `0x` prefix after the leading whitespace,
      `parseInt` reads the decimal digit run that starts there. */
  lemma ParseIntUnsignedDecimal(s: string, k: nat)
    requires k < |s| && SpaceEnd(s, 0) == k
    requires IsDecimalDigit(s[k])
    requires !(k + 1 < |s| && s[k] == '0' && (s[k + 1] == 'x' || s[k + 1] == 'X'))
    ensures ParseInt(s) == Some(DigitsValue(s[k..][..DigitRun(s[k..], 10)], 10))
  {
    var t := s[k..];
    assert t[0] == s[k];
    assert |t| >= 2 ==> t[1] == s[k + 1];
  }

  /** `parseInt` reads back what `Show` writes, whatever whitespace precedes
      it and whatever non-digit text follows it. */
  lemma ParseIntShow(ws: string, n: nat, rest: string)
    requires AllWhitespace(ws)
    requires rest == [] || !IsDecimalDigit(rest[0])
    requires n > 0 || rest == [] || (rest[0] != 'x' && rest[0] != 'X')
    ensures ParseInt(ws + Show(n) + rest) == Some(n)
  {
    var d := Show(n);
    var t := d + rest;
    var s := ws + d + rest;
    assert s == ws + t;
    assert s[|ws|..] == t;
    assert s[|ws|] == d[0];
    SpaceEndAt(s, 0, |ws|);
    if |ws| + 1 < |s| && s[|ws|] == '0' {
      assert n == 0 && |d| == 1;
      assert s[|ws| + 1] == rest[0];
    }
    ParseIntUnsignedDecimal(s, |ws|);
    DigitRunOfDigits(d, rest, 10);
    assert t[..|d|] == d;
    ShowValue(n);
  }

  // ---------------------------------------------------------------------
  // slice(0, end)
  // ---------------------------------------------------------------------

  /** Where `x.slice(0, end)` stops on a sequence of length `len`: a negative
      `end` counts back from the end, and the result is clamped to
      `[0, len]`. */
  function SliceStop(len: nat, end: int): (k: nat)
    ensures k <= len
  {
    if end < 0 then (if len + end > 0 then len + end else 0)
    else if end < len then end
    else len
  }

  /** `x.slice(0, end)`. */
  function SlicePrefix<T>(x: seq<T>, end: int): (r: seq<T>)
    ensures |r| <= |x| && r == x[..|r|]
    ensures 0 <= end ==> |r| == if end < |x| then end else |x|
    ensures end < 0 ==> |r| == if |x| + end > 0 then |x| + end else 0
  {
    x[..SliceStop(|x|, end)]
  }
}

=== FILE: logging_service.dfy ===
/**
 The decision logic of `LoggingService`: the spinner's frame index and its
 timer bookkeeping, how the answers of `confirm`, `input` and `select` are
 interpreted, and which lines `syncStatus`, `commitHistory`,
 `commandOutput` and `warnings` print. Output is modelled as the text of
 each write, colours left out.
 */
module LoggingService {
  import opened JsRuntime

  /** The ten braille frames the spinner cycles through. */
  const SpinnerFrames: seq<char> :=
    ['\U{280B}', '\U{2819}', '\U{2839}', '\U{2838}', '\U{283C}',
     '\U{2834}', '\U{2826}', '\U{2827}', '\U{2807}', '\U{280F}']

  const CheckMark := "\U{2713}"

  /** One console write: raw text on stdout, the erase-line sequence, or a
      full `console.log` line. */
  datatype Output = Write(text: string) | ClearLine | Log(text: string)

  // ---------------------------------------------------------------------
  // Spinner
  // ---------------------------------------------------------------------

  /** The spinner's state: the timer handle held in `spinnerInterval`, the
      set of timers still running, the next handle `setInterval` hands
      out, `spinnerIndex`, and the message the running timer repaints. */
  datatype Spinner = Spinner(interval: Option<nat>, running: set<nat>, nextTimer: nat, index: int, message: string)

  /** A fresh service: no timer held or running, index 0. */
  const Idle := Spinner(None, {}, 0, 0, "")

  /** The spinner invariant: the index names a frame, and the only running
      timer is the one the service holds, so no timer is ever orphaned. */
  predicate Valid(s: Spinner) {
    && 0 <= s.index < |SpinnerFrames|
    && s.running == (if s.interval.Some? then {s.interval.value} else {})
    && (s.interval.Some? ==> s.interval.value < s.nextTimer)
  }

  /** The text a paint writes: two spaces, the frame, a space, the message. */
  function FrameText(i: nat, message: string): string
    requires i < |SpinnerFrames|
  {
    "  " + [SpinnerFrames[i]] + " " + message
  }

  datatype Step = Step(state: Spinner, output: seq<Output>)

  /** `stopSpinner(finalMessage)`: with a running spinner, clear its timer,
      erase the line and print the final message when it is truthy (an
      omitted message is the empty string here); with none, do nothing. */
  function StopSpinner(s: Spinner, finalMessage: string): (r: Step)
    ensures s.interval.None? ==> r == Step(s, [])
    ensures r.state.interval.None?
    ensures s.interval.Some? ==>
              && r.state.running == s.running - {s.interval.value}
              && |r.output| >= 1 && r.output[0] == ClearLine
              && (|r.output| == 2 <==> Truthy(finalMessage))
              && (Truthy(finalMessage) ==> r.output == [ClearLine, Log("  " + CheckMark + " " + finalMessage)])
              && (!Truthy(finalMessage) ==> r.output == [ClearLine])
    ensures r.state.index == s.index
    ensures Valid(s) ==> Valid(r.state) && r.state.running == {}
  {
    match s.interval
    case None => Step(s, [])
    case Some(t) =>
      Step(s.(interval := None, running := s.running - {t}),
           [ClearLine] + (if Truthy(finalMessage) then [Log("  " + CheckMark + " " + finalMessage)] else []))
  }

  /** `startSpinner(message)`: stop any running spinner first, paint frame 0
      and start a new timer. The frame index is not reset. */
  function StartSpinner(s: Spinner, message: string): (r: Step)
    ensures r.state.interval == Some(s.nextTimer)
    ensures r.state.index == s.index && r.state.message == message
    ensures Valid(s) && s.interval.Some? ==> s.interval.value !in r.state.running
    ensures |r.output| >= 1 && r.output[|r.output| - 1] == Write(FrameText(0, message))
    ensures r.output == (if s.interval.Some? then [ClearLine] else []) + [Write(FrameText(0, message))]
    ensures Valid(s) ==> Valid(r.state) && r.state.running == {s.nextTimer}
  {
    var stopped := StopSpinner(s, "");
    var t := stopped.state.nextTimer;
    Step(stopped.state.(interval := Some(t), running := stopped.state.running + {t}, nextTimer := t + 1, message := message),
         stopped.output + [Write(FrameText(0, message))])
  }

  /** One firing of the running timer: advance the index modulo the frame
      count, erase the line and paint the new frame. Without a running
      timer nothing fires. */
  function Tick(s: Spinner): (r: Step)
    requires Valid(s)
    ensures Valid(r.state)
    ensures s.interval.None? ==> r == Step(s, [])
    ensures s.interval.Some? ==>
              && r.state == s.(index := (s.index + 1) % |SpinnerFrames|)
              && r.output == [ClearLine, Write(FrameText(r.state.index, s.message))]
  {
    if s.interval.None? then Step(s, [])
    else
      var i := (s.index + 1) % |SpinnerFrames|;
      Step(s.(index := i), [ClearLine, Write(FrameText(i, s.message))])
  }

  /** The state after `n` firings. */
  function Ticks(s: Spinner, n: nat): (r: Spinner)
    requires Valid(s)
    ensures Valid(r)
    decreases n
  {
    if n == 0 then s else Ticks(Tick(s).state, n - 1)
  }

  /** After `n` firings of a running spinner the index is the start index
      plus `n`, modulo the frame count: the frames are shown in cyclic
      order. */
  lemma {:induction false} TicksAdvanceCyclically(s: Spinner, n: nat)
    requires Valid(s) && s.interval.Some?
    ensures Ticks(s, n).index == (s.index + n) % |SpinnerFrames|
    ensures Ticks(s, n).interval == s.interval
    decreases n
  {
    if n > 0 {
      var s' := Tick(s).state;
      TicksAdvanceCyclically(s', n - 1);
      CyclicStep(s.index, n - 1);
    }
  }

  /** One step then `m` more steps round the frames is `m + 1` steps. */
  lemma CyclicStep(i: int, m: nat)
    ensures ((i + 1) % |SpinnerFrames| + m) % |SpinnerFrames| == (i + 1 + m) % |SpinnerFrames|
  {
    var q := (i + 1) / 10;
    assert i + 1 == 10 * q + (i + 1) % 10;
    assert (i + 1 + m) == ((i + 1) % 10 + m) + 10 * q;
  }

  /** The first start on a fresh service finds no spinner to stop, so it
      clears no line: it paints frame 0 and runs the first timer. */
  lemma FirstStartFromIdle(message: string)
    ensures Valid(Idle)
    ensures StartSpinner(Idle, message) ==
            Step(Spinner(Some(0), {0}, 1, 0, message), [Write(FrameText(0, message))])
  {
  }

  /** Starting twice in a row leaves exactly one timer running, the second
      one: the first was stopped rather than orphaned. */
  lemma RestartLeavesOneTimer(s: Spinner, first: string, second: string)
    requires Valid(s)
    ensures var a := StartSpinner(s, first).state;
            var b := StartSpinner(a, second).state;
            && b.running == {a.nextTimer}
            && a.interval.value !in b.running
            && b.message == second
  {
  }

  // ---------------------------------------------------------------------
  // confirm / input / select
  // ---------------------------------------------------------------------

  /** ASCII lower-casing of one character. */
  function LowerAscii(c: char): char {
    if 'A' <= c <= 'Z' then (c as int - 'A' as int + 'a' as int) as char else c
  }

  /** `toLowerCase` on the ASCII letters: capitals become their small
      letters and every other character is kept. */
  function ToLower(s: string): (r: string)
    ensures |r| == |s|
    ensures forall i :: 0 <= i < |r| ==> !('A' <= r[i] <= 'Z')
    ensures forall i :: 0 <= i < |s| ==>
              if 'A' <= s[i] <= 'Z' then r[i] as int == s[i] as int + 32 else r[i] == s[i]
  {
    seq(|s|, i requires 0 <= i < |s| => LowerAscii(s[i]))
  }

  /** `confirm`: the lower-cased answer is exactly "y" or "yes"; nothing is
      trimmed, so surrounding spaces make the answer a no. */
  function Confirm(answer: string): (yes: bool)
    ensures yes ==> |answer| == 1 || |answer| == 3
  {
    var a := ToLower(answer);
    a == "y" || a == "yes"
  }

  /** Every spelling `confirm` accepts. */
  const AffirmativeAnswers: set<string> :=
    {"y", "Y", "yes", "yeS", "yEs", "yES", "Yes", "YeS", "YEs", "YES"}

  /** `confirm` says yes exactly for the ten case variants of "y" and
      "yes". */
  lemma ConfirmAcceptsExactly(answer: string)
    ensures Confirm(answer) <==> answer in AffirmativeAnswers
  {
    if Confirm(answer) {
      var a := ToLower(answer);
      assert forall i :: 0 <= i < |answer| ==> a[i] == LowerAscii(answer[i]);
      if |answer| == 1 {
        assert answer == [answer[0]];
      } else {
        assert answer == [answer[0], answer[1], answer[2]];
      }
    }
  }

  /** `input`: the answer, trimmed. */
  function Input(answer: string): (r: string)
    ensures IsTrimmed(r)
    ensures |r| <= |answer|
  {
    Trim(answer)
  }

  /** Whatever whitespace surrounds a trimmed answer, `input` returns just
      the answer; asking again with the result changes nothing. */
  lemma InputStripsPadding(before: string, core: string, after: string)
    requires AllWhitespace(before) && AllWhitespace(after) && IsTrimmed(core)
    ensures Input(before + core + after) == core
    ensures Input(Input(before + core + after)) == core
  {
    TrimPadded(before, core, after);
    TrimPadded("", core, "");
    assert "" + core + "" == core;
  }

  /** The lines `select` prints before asking: the prompt, then each option
      numbered from 1. */
  function MenuLines(prompt: string, options: seq<string>): (lines: seq<string>)
    ensures |lines| == |options| + 1
    ensures lines[0] == "  " + prompt
    ensures forall i :: 0 <= i < |options| ==> lines[i + 1] == "    " + Show(i + 1) + ") " + options[i]
  {
    ["  " + prompt] + seq(|options|, i requires 0 <= i < |options| => "    " + Show(i + 1) + ") " + options[i])
  }

  const ChooseOpening := "  Choose (1-"

  /** The question `select` asks: the range of option numbers. */
  function ChoosePrompt(options: seq<string>): (q: string)
    ensures |q| > |ChooseOpening| && q[..|ChooseOpening|] == ChooseOpening
  {
    ChooseOpening + Show(|options|) + "): "
  }

  /** The range the question names ends at the number of the last menu
      line: reading the number after the opening gives the option count. */
  lemma ChoosePromptNamesLastOption(options: seq<string>)
    ensures ParseInt(ChoosePrompt(options)[|ChooseOpening|..]) == Some(|options|)
  {
    var q := ChoosePrompt(options);
    assert q[|ChooseOpening|..] == "" + Show(|options|) + "): ";
    ParseIntShow("", |options|, "): ");
  }

  /** `select`: `parseInt` of the answer, minus one, picks an option when it
      is in range; otherwise the trimmed answer itself is the choice. */
  function Select(options: seq<string>, answer: string): (r: string)
    ensures r in options || r == Trim(answer)
    ensures ParseInt(answer).None? ==> r == Trim(answer)
    ensures ParseInt(answer).Some? && !(1 <= ParseInt(answer).value <= |options|) ==> r == Trim(answer)
    ensures ParseInt(answer).Some? && 1 <= ParseInt(answer).value <= |options| ==>
              r == options[ParseInt(answer).value - 1]
  {
    var n := ParseInt(answer);
    if n.Some? && 0 <= n.value - 1 < |options| then options[n.value - 1] else Trim(answer)
  }

  /** Typing the number the menu shows for an option selects that option,
      whatever whitespace precedes it and whatever non-digit text follows. */
  lemma SelectByNumber(options: seq<string>, i: nat, ws: string, rest: string)
    requires i < |options|
    requires AllWhitespace(ws)
    requires rest == [] || !IsDecimalDigit(rest[0])
    ensures Select(options, ws + Show(i + 1) + rest) == options[i]
  {
    ParseIntShow(ws, i + 1, rest);
  }

  /** Typing a number that names no menu line (0, or more than the number
      of options) gives back the trimmed answer itself. */
  lemma SelectOutOfRange(options: seq<string>, n: nat, ws: string, rest: string)
    requires n == 0 || n > |options|
    requires AllWhitespace(ws)
    requires rest == [] || !IsDecimalDigit(rest[0])
    requires n > 0 || rest == [] || (rest[0] != 'x' && rest[0] != 'X')
    ensures Select(options, ws + Show(n) + rest) == Trim(ws + Show(n) + rest)
  {
    ParseIntShow(ws, n, rest);
  }

  /** Typing back a whole numbered menu line selects the option on it. */
  lemma SelectEchoedMenuLine(prompt: string, options: seq<string>, i: nat)
    requires i < |options|
    ensures Select(options, MenuLines(prompt, options)[i + 1]) == options[i]
  {
    var line := MenuLines(prompt, options)[i + 1];
    assert line == "    " + Show(i + 1) + (") " + options[i]);
    SelectByNumber(options, i, "    ", ") " + options[i]);
  }

  // ---------------------------------------------------------------------
  // Display rules
  // ---------------------------------------------------------------------

  const SyncHeader := "Sync Status:"
  const UpToDateLine := "  \U{2713} Up to date with remote"
  const AheadMark := '\U{2191}'
  const BehindMark := '\U{2193}'
  const AheadPrefix := "  " + [AheadMark] + " "
  const BehindPrefix := "  " + [BehindMark] + " "

  function AheadLine(n: nat): string {
    AheadPrefix + Show(n) + " commit(s) ahead of remote"
  }

  function BehindLine(n: nat): string {
    BehindPrefix + Show(n) + " commit(s) behind remote"
  }

  /** Some line carries `mark` where the status lines put their arrow. */
  predicate MarkedLine(lines: seq<string>, mark: char) {
    exists i :: 0 <= i < |lines| && |lines[i]| > 2 && lines[i][2] == mark
  }

  /** `syncStatus(ahead, behind)`: the header; an ahead line when ahead is
      positive; a behind line when behind is positive; the up-to-date line
      when both are zero. Negative counts print no count line. */
  function SyncStatus(ahead: int, behind: int): (lines: seq<string>)
    ensures |lines| >= 1 && lines[0] == SyncHeader
    ensures UpToDateLine in lines <==> ahead == 0 && behind == 0
    ensures ahead > 0 ==> |lines| >= 2 && lines[1] == AheadLine(ahead)
    ensures behind > 0 ==> lines[|lines| - 1] == BehindLine(behind)
    ensures |lines| == 1 + (if ahead > 0 then 1 else 0) + (if behind > 0 then 1 else 0)
                         + (if ahead == 0 && behind == 0 then 1 else 0)
  {
    [SyncHeader]
    + (if ahead > 0 then [AheadLine(ahead)] else [])
    + (if behind > 0 then [BehindLine(behind)] else [])
    + (if ahead == 0 && behind == 0 then [UpToDateLine] else [])
  }

  /** Some line of the status line marks commits ahead exactly when the
      ahead count is positive, and likewise for behind. */
  lemma SyncStatusMarksCounts(ahead: int, behind: int)
    ensures MarkedLine(SyncStatus(ahead, behind), AheadMark) <==> ahead > 0
    ensures MarkedLine(SyncStatus(ahead, behind), BehindMark) <==> behind > 0
  {
    var lines := SyncStatus(ahead, behind);
    forall i | 0 <= i < |lines|
      ensures |lines[i]| > 2
      ensures lines[i][2] == AheadMark <==> ahead > 0 && i == 1
      ensures lines[i][2] == BehindMark <==> behind > 0 && i == (if ahead > 0 then 2 else 1)
    {
      if i == 0 {
        assert lines[i] == SyncHeader;
      } else if ahead > 0 && i == 1 {
        assert lines[i][2] == AheadMark;
      } else if behind > 0 && i == (if ahead > 0 then 2 else 1) {
        assert lines[i][2] == BehindMark;
      } else {
        assert lines[i] == UpToDateLine;
      }
    }
    if ahead > 0 {
      assert lines[1][2] == AheadMark;
    }
    if behind > 0 {
      var j := if ahead > 0 then 2 else 1;
      assert lines[j][2] == BehindMark;
    }
  }

  /** The count printed on an ahead line reads back as the ahead count. */
  lemma AheadCountReadsBack(ahead: nat)
    requires ahead > 0
    ensures var line := SyncStatus(ahead, 0)[1];
            ParseInt(line[|AheadPrefix|..]) == Some(ahead)
  {
    var line := AheadLine(ahead);
    assert line[|AheadPrefix|..] == "" + Show(ahead) + " commit(s) ahead of remote";
    ParseIntShow("", ahead, " commit(s) ahead of remote");
  }

  const CommitsHeader := "\nRecent Commits:"

  /** `commitHistory(commits, limit)`: the header, then each commit of
      `commits.slice(0, limit)` indented, in order. */
  method CommitHistory(commits: seq<string>, limit: int) returns (lines: seq<string>)
    ensures |lines| == 1 + |SlicePrefix(commits, limit)|
    ensures lines[0] == CommitsHeader
    ensures forall i :: 0 <= i < |lines| - 1 ==> lines[i + 1] == "  " + commits[i]
  {
    var shown := SlicePrefix(commits, limit);
    lines := [CommitsHeader];
    var i := 0;
    while i < |shown|
      invariant 0 <= i <= |shown|
      invariant |lines| == 1 + i && lines[0] == CommitsHeader
      invariant forall k :: 0 <= k < i ==> lines[k + 1] == "  " + commits[k]
    {
      lines := lines + ["  " + shown[i]];
      i := i + 1;
    }
  }

  /** `commandOutput(output, maxLength)`: nothing for empty output,
      otherwise one indented line with `output.slice(0, maxLength)`. */
  function CommandOutput(output: string, maxLength: int): (lines: seq<string>)
    ensures output == "" <==> lines == []
    ensures output != "" ==>
              && |lines| == 1
              && 2 <= |lines[0]| <= |output| + 2
              && lines[0] == "  " + output[..|lines[0]| - 2]
              && (0 <= maxLength ==> |lines[0]| - 2 == if maxLength < |output| then maxLength else |output|)
              && (maxLength < 0 ==> |lines[0]| - 2 == if |output| + maxLength > 0 then |output| + maxLength else 0)
  {
    if output == "" then [] else ["  " + SlicePrefix(output, maxLength)]
  }

  const WarningsHeader := "\U{26A0} Warnings:"

  function Bullet(warning: string): string {
    "  \U{2022} " + warning
  }

  /** `warnings(list)`: nothing for an empty list; otherwise the header, one
      bullet per warning in order, and an empty line. */
  method Warnings(warnings: seq<string>) returns (lines: seq<string>)
    ensures warnings == [] ==> lines == []
    ensures warnings != [] ==>
              && |lines| == |warnings| + 2
              && lines[0] == WarningsHeader
              && lines[|lines| - 1] == ""
              && forall i :: 0 <= i < |warnings| ==> lines[i + 1] == Bullet(warnings[i])
  {
    lines := [];
    if warnings != [] {
      lines := [WarningsHeader];
      var i := 0;
      while i < |warnings|
        invariant 0 <= i <= |warnings|
        invariant |lines| == 1 + i && lines[0] == WarningsHeader
        invariant forall k :: 0 <= k < i ==> lines[k + 1] == Bullet(warnings[k])
      {
        lines := lines + [Bullet(warnings[i])];
        i := i + 1;
      }
      lines := lines + [""];
    }
  }
}
